=== FILE: README.md ===
# Library app front end — a Dafny model

This project models the React front end of a small library application. Users
browse books and categories in pages of ten, open a create/edit form or a
read-only detail view, delete entries after a confirmation dialog, and write
reviews of books. The model is functional: each screen's React state is an
immutable datatype, and each event handler is a pure transition function.
Network calls become a `Request` value, which is the request the handler would
send, together with an `Outcome` input (`Success`, or `Failure` with the
server's optional message). A `window.confirm` answer is a boolean input.

Module layout, following the source components:

- `Js` covers the JavaScript semantics the handlers rely on:
  - number truthiness, where `0` and `NaN` are falsy;
  - `||` on strings and numbers;
  - template-literal rendering of integers;
  - `parseInt` on the whitespace-trimmed, optionally signed, leading-digit prefix.
- `Entities` holds the book, category and review records and the form drafts.
- `Http` holds requests, outcomes, react-query keys and the error-banner text rule.
- `ResourceScreen` is the list/form/detail screen. One generic model serves all three revisions: `Books.tsx`, `components/Category.tsx` and `pages/Category.tsx` have identical handlers.
- `Pagination` covers the Previous/Next controls. `ResourceLists` covers the book cards and category rows.
- `FormController` is the submit cycle shared by the two forms. `BookForm` and `CategoryForm` are the forms themselves.
- `DeleteFlow` is the confirm-then-delete cycle shared by the three detail components. `BookDisplay` covers the detail and card display rules.
- `ReviewScreen` is the review page, in both revisions. `BookReviewPage` is the per-book review page, which reads the book id from its `bookId` route parameter.
- `Navbar` covers the `classNames` helper, the navigation table and how each link's class is composed.
- `Wiring` connects screens to forms and details, with end-to-end scenarios.

The main invariant of the list screens: the page stays ≥ 1, and an open form in edit mode always has an entity. It is proved by induction over the run (`ResourceScreen.EnabledRunKeepsWf`). It holds for runs in which every event comes from a control that can be clicked, and in particular for runs in which no delete response arrives after the detail has closed. The detail's Edit button stays clickable while a delete is in flight (src/components/BookDetail.tsx:103-108). Clicking it and then receiving the success clears the selection under an edit-mode form, and a later save then POSTs a new book. `ResourceScreen.LateDeleteBreaksWf` exhibits this run.

Behaviours of the code worth noting:

- **The page is not clamped.** `handlePageChange` stores whatever page it is given (src/components/Books.tsx:93-95). Pages below 1 are kept out only because the Previous button is disabled at page 1. The invariant therefore holds for enabled events only (`ResourceScreen.FirstPageOnlyForward`, `ResourceScreen.StepKeepsWf`).
- **BookForm uses other paths.** It saves to `/books` and `/books/{id}` (src/components/BookForm.tsx:68-78), while every other call, including the book list fetch and the book delete, uses `/api/...` (src/components/Books.tsx:30, src/components/BookDetail.tsx:25). The model keeps the paths as written (`BookForm.SaveRequest`).
- **The selection survives a close or save.** Closing the form or a successful save does not clear the selected entity (src/components/Books.tsx:75-77, 83-86). When the form closes, the detail view of the previously selected entity reappears (`ResourceScreen.CloseForm`, `ResourceScreen.FormSubmit`).
- **BookForm does not reset on create.** Its effect leaves the draft alone when it is not in edit mode (src/components/BookForm.tsx:42-52). CategoryForm's effect resets to an empty draft (src/components/CategoryForm.tsx:36-50) (`BookForm.PopulateEffect`, `CategoryForm.SyncEffect`).

## Model

| member | source | states |
|---|---|---|
| Js.ParseInt | src/components/BookForm.tsx:58 | parseInt of a string with no digit at all is NaN |
| Js.ParseIntRoundTrip | src/components/Review.tsx:142 | an id rendered as an option value and parsed back (possibly followed by non-digit text) yields that id again, for every integer including negatives |
| Js.ParseIntOfDecimal | src/pages/Review.tsx:260 | parseInt inverts the decimal rendering of any integer |
| Js.DecimalValueRoundTrip | src/components/BookReviewPage.tsx:170 | the digit string of a natural number has that number as its value (the core of the parse/render round trip) |
| Js.ParseIntZero | src/components/BookReviewPage.tsx:170 | the route fallback string "0" parses to 0 |
| Js.StrOr | src/components/BookDetail.tsx:82 | `a \|\| b` on strings is non-empty exactly when one operand is |
| Js.NumOr | src/components/Review.tsx:129 | `a \|\| b` on numbers is truthy exactly when one operand is |
| Js.IntToDecimal | src/components/Books.tsx:30 | a rendered integer is non-empty, starts with '-' exactly for negatives, and is all digits exactly for non-negatives |
| Http.ErrorText | src/components/BookForm.tsx:80-81 | the banner shows the server message when there is a non-empty one, otherwise the fallback; never empty when the fallback is not |
| Pagination.ControlsFor | src/components/BookList.tsx:36-48 | Previous is disabled exactly at page ≤ 1, the shown page is the current one, Previous/Next target current−1/current+1, and an enabled Previous never targets a page below 1 |
| ResourceScreen.Initial | src/components/Books.tsx:43-46 | the screen opens on page 1 with neither form nor detail shown |
| ResourceScreen.FormView | src/components/Books.tsx:121-130 | the form is rendered exactly when open, in the screen's mode; in edit mode it receives the selected entity, and in create mode none |
| ResourceScreen.DetailView | src/components/Books.tsx:133-140 | the detail shows the selected entity only while no form is open, and always does when one is selected and the form is closed |
| ResourceScreen.ListRequest | src/components/Books.tsx:29-33 | the list fetch is a GET of the resource path with the current page and limit 10 (same in src/components/Category.tsx:19-23 and src/pages/Category.tsx:20-30) |
| ResourceScreen.AddNewClick | src/components/Books.tsx:58-62 | Add New clears the selection, sets create mode and opens the form, so an empty create-mode form shows and the detail is hidden; the page is kept and nothing is refetched |
| ResourceScreen.EditClick | src/components/Books.tsx:64-68 | Edit opens an edit-mode form on exactly the clicked entity and hides the detail |
| ResourceScreen.Enabled | src/components/Books.tsx:121-140 | which controls can be clicked, given that both modals are full-screen overlays (src/components/BookForm.tsx:90, src/components/BookDetail.tsx:45): Add New, View and the pagination buttons exactly while neither modal is drawn; Edit on an entity exactly while no form is open and either no detail or that entity's detail is drawn; the form's close and submit exactly while the form is open; the detail's close and delete exactly while an entity is selected and no form is open; a page request only to the next page or, above page 1, the previous one |
| ResourceScreen.ViewClick | src/components/Books.tsx:70-73 | View shows the clicked entity's detail, closes any form and leaves the edit flag as it was |
| ResourceScreen.CloseForm | src/pages/Category.tsx:64-66 | closing the form keeps the selection, so a previously selected entity's detail reappears |
| ResourceScreen.CloseDetail | src/components/Category.tsx:58-60 | closing the detail clears the selection and leaves form flags and page alone |
| ResourceScreen.FormSubmit | src/components/Category.tsx:62-65 | a successful save closes the form, refetches the list once and keeps the selection and page |
| ResourceScreen.DeleteSuccess | src/components/Books.tsx:88-91 | a successful delete clears the selection (hiding the detail) and refetches the list once |
| ResourceScreen.PageChange | src/pages/Category.tsx:82-84 | a page change stores the requested page unclamped, so the next list request is for that page, under a new query key exactly when the page differs; nothing else changes |
| ResourceScreen.InitialWf | src/components/Books.tsx:43-46 | the initial screen satisfies the screen invariant |
| ResourceScreen.StepKeepsWf | src/components/Books.tsx:58-95 | every handler a visible control can fire preserves page ≥ 1 and "edit-mode form has an entity" |
| ResourceScreen.CloseDetailNeedsGuard | src/components/Books.tsx:133-138 | the close-detail handler alone would leave an edit-mode form without its entity; only the hidden detail prevents that |
| ResourceScreen.LateDeleteBreaksWf | src/components/BookDetail.tsx:103-108 | counterexample: Edit, clickable in the detail of the entity, pressed while a delete is in flight, then the delete's success (src/components/Books.tsx:88-91) leaves an edit-mode form with no entity; the model's enabled events exclude that late success |
| ResourceScreen.FirstPageOnlyForward | src/components/BookList.tsx:36-39 | on page 1 the only page the controls can request is 2 |
| ResourceScreen.EnabledRunKeepsWf | src/components/Category.tsx:37-74 | the invariant holds after any sequence of events whose controls can be clicked; a delete response arriving after the detail closed is outside this (see LateDeleteBreaksWf) |
| ResourceScreen.RefetchesCountMutations | src/pages/Category.tsx:72-80 | a run makes exactly one explicit `refetch()` call per successful save or delete and none otherwise (a page change fetches through its new query key instead) |
| ResourceScreen.ReachableScreens | src/pages/Category.tsx:112-129 | from the initial screen, every state reached by events whose controls can be clicked is on page ≥ 1, never shows form and detail together, and never shows an edit form without an entity |
| FormController.Fresh | src/components/BookForm.tsx:32-33 | a mounted form has its submit enabled and no error banner |
| FormController.Submit | src/components/BookForm.tsx:62-85 | submitting clears the error and disables the button while pending; on settlement the button re-enables with the draft kept, the parent is notified only on success, and a failure shows the message-or-fallback banner |
| FormController.RetryClearsError | src/components/CategoryForm.tsx:60-83 | a retry after a failure clears the banner while the new request is pending |
| BookForm.InitialDraft | src/components/BookForm.tsx:35-40 | the create draft is empty text with the first category's id preselected, or 0 when there are no categories |
| BookForm.PopulateEffect | src/components/BookForm.tsx:42-52 | in edit mode with a book the draft is loaded from the book; otherwise the draft is left untouched |
| BookForm.Mount | src/components/BookForm.tsx:35-52 | a freshly mounted form holds the book's fields in edit mode and the initial draft otherwise, with nothing pending |
| BookForm.HandleChange | src/components/BookForm.tsx:54-60 | an input changes exactly its own field; the category field is stored as parseInt of the value |
| BookForm.SelectCategoryStoresId | src/components/BookForm.tsx:147-162 | choosing a category option stores that category's id |
| BookForm.ChangesCommute | src/components/BookForm.tsx:54-60 | edits to different fields commute and repeating an edit changes nothing |
| BookForm.SaveRequest | src/components/BookForm.tsx:68-78 | the save is a PUT to /books/{id} exactly in edit mode with a book, otherwise a POST to /books, carrying the draft |
| BookForm.HandleSubmit | src/components/BookForm.tsx:62-85 | the book form's submit sends its save request and follows the submit cycle with the book fallback message |
| FormController.Render | src/components/BookForm.tsx:87-209 | nothing is rendered while closed; otherwise the heading is "Edit X" or "Add New X" by mode, the banner shows exactly the non-empty error, and the button is disabled and reads "Saving..." exactly while submitting, else "Update X" or "Add X" (X = Book here, Category at src/components/CategoryForm.tsx:85-156) |
| CategoryForm.SyncEffect | src/components/CategoryForm.tsx:36-50 | in edit mode with a category the draft is loaded from it, otherwise reset to empty |
| CategoryForm.SyncForgetsEdits | src/components/CategoryForm.tsx:36-50 | after the effect runs, the draft depends only on the props, not on earlier edits |
| CategoryForm.Mount | src/components/CategoryForm.tsx:31-50 | a mounted form holds the category in edit mode and an empty draft otherwise, with nothing pending |
| CategoryForm.HandleChange | src/components/CategoryForm.tsx:52-58 | an input changes exactly its own field |
| CategoryForm.TypedDraft | src/components/CategoryForm.tsx:52-58 | typing a name and a description yields exactly that draft whatever was there before |
| CategoryForm.SaveRequest | src/components/CategoryForm.tsx:66-76 | PUT /api/category/{id} exactly in edit mode with a category, otherwise POST /api/category, carrying the draft |
| CategoryForm.HandleSubmit | src/components/CategoryForm.tsx:60-83 | the category form's submit sends its save request and follows the submit cycle with the category fallback message |
| DeleteFlow.InitialQuiet | src/components/BookDetail.tsx:16-18 | a detail opens with no dialog, enabled buttons and no error (documents the three initial state values; no proof work) |
| DeleteFlow.RequestDelete | src/components/BookDetail.tsx:110 | Delete opens the dialog without sending anything |
| DeleteFlow.CancelDelete | src/components/BookDetail.tsx:128-130 | Cancel closes the dialog without sending anything |
| DeleteFlow.ConfirmDelete | src/components/BookDetail.tsx:20-34 | confirming sends DELETE to the entity's URL with the error cleared; success notifies the parent once; failure notifies nobody, closes the dialog, re-enables the buttons and shows a non-empty message |
| DeleteFlow.Enabled | src/components/BookDetail.tsx:119-141 | the Delete button is always clickable; Cancel and Confirm exactly while the dialog is drawn and no delete is in flight |
| DeleteFlow.ActionKeepsWf | src/pages/BookDetail.tsx:142-152 | every enabled action keeps "a delete in flight implies the dialog is open" |
| DeleteFlow.NoSecondDelete | src/components/CategoryDetail.tsx:106-118 | while a successful delete is settling, no button can fire another request |
| DeleteFlow.FailureAllowsRetry | src/pages/BookDetail.tsx:30-34 | after a failed delete the user can press Delete and confirm again, and the retry clears the old error while it is in flight |
| BookDisplay.CategoryLabel | src/components/BookDetail.tsx:82 | the category's name when present and non-empty, else "Uncategorized"; never empty |
| BookDisplay.CoverOf | src/components/BookList.tsx:68-81 | an image of the book's URL exactly when that URL is non-empty, else the placeholder (same at src/components/BookDetail.tsx:67) |
| BookDisplay.UpdatedLine | src/components/BookDetail.tsx:94-97 | "Last updated" is shown, with the update time, exactly when it differs from the creation time |
| ResourceLists.CardOf | src/components/BookList.tsx:64-102 | a card shows its book, reports that book from View and Edit, labels it with its non-empty category name or "Uncategorized", and draws an image exactly when image_url is non-empty |
| ResourceLists.BookList | src/components/BookList.tsx:16-53 | the empty message shows exactly for no books; otherwise one card per book in order, each with that book's category label and cover; pagination renders either way |
| ResourceLists.CategoryList | src/components/CategoryList.tsx:22-100 | the empty message exactly for no categories; one row per category in order; pagination always rendered |
| ResourceLists.BookListEventsEnabled | src/components/BookList.tsx:22-48 | while no modal covers the list, every click the book list offers is an enabled screen event |
| ResourceLists.ViewCardShowsItsBook | src/components/BookList.tsx:22-28 | clicking a card shows that card's book in the detail |
| ResourceLists.EditRowOpensItsCategory | src/components/CategoryList.tsx:62-68 | a row's Edit opens the form on that row's category |
| ReviewScreen.InitialScreen | src/components/Review.tsx:276-278 | the screen opens unfiltered, fetching all reviews, with Add shown and no Clear |
| ReviewScreen.EnabledQueries | src/components/Review.tsx:281-291 | exactly one review query is enabled: the book's query when a truthy book id is selected, otherwise the all-reviews query |
| ReviewScreen.ListRequest | src/components/Review.tsx:35-45 | GET /api/review/book/{id} when filtered, else GET /api/review |
| ReviewScreen.Displayed | src/components/Review.tsx:359-404 | the form shows exactly when open, carrying the review being edited; otherwise the loading flag and cards come from the filtered or the unfiltered query |
| ReviewScreen.DisplayFollowsFilter | src/pages/Review.tsx:389-390 | what is displayed depends only on the query the filter selects |
| ReviewScreen.AddClick | src/components/Review.tsx:329-332 | Add opens an empty form and keeps the filter |
| ReviewScreen.EditClick | src/components/Review.tsx:334-337 | Edit opens the form on that review and keeps the filter |
| ReviewScreen.AddButtonShown | src/components/Review.tsx:366-373 | the Add Review button is drawn exactly when the form panel is not |
| ReviewScreen.ClearShown | src/pages/Review.tsx:271-277 | Clear is drawn exactly when the form is hidden (its filter panel only replaces the form, src/pages/Review.tsx:406-418) and the all-reviews query is not the enabled one, i.e. while a book filter is in force |
| ReviewScreen.CancelForm | src/components/Review.tsx:353-356 | Cancel closes the form, forgets the edited review and shows Add again |
| ReviewScreen.MutationRequest | src/components/Review.tsx:53-69 | create is POST /api/review, update PUT /api/review/{id}, delete DELETE /api/review/{id}, with the draft as body where there is one |
| ReviewScreen.DeleteClick | src/components/Review.tsx:339-343 | a delete mutation is issued exactly when the user confirms, and for that review |
| ReviewScreen.FormSubmit | src/components/Review.tsx:345-351 | the submit updates exactly when a review is being edited, using its id, and creates otherwise, with the submitted data |
| ReviewScreen.Invalidated | src/components/Review.tsx:296-300 | a success invalidates the all-reviews list, and the selected book's list too when filtered |
| ReviewScreen.Settle | src/components/Review.tsx:294-326 | a failure changes nothing; create success closes the form; update success closes it and forgets the edited review; delete leaves the screen; the filter never changes |
| ReviewScreen.SelectFilter | src/pages/Review.tsx:260 | choosing "All Reviews" unfilters; any other option filters by parseInt of its value |
| ReviewScreen.ClearFilter | src/pages/Review.tsx:271-277 | Clear returns to the all-reviews query and leaves the form alone |
| ReviewScreen.SelectBookFilters | src/pages/Review.tsx:258-268 | choosing a book option filters by exactly that book and shows Clear |
| ReviewScreen.ClearRestoresUnfiltered | src/pages/Review.tsx:311-321 | select-then-clear gives the unfiltered queries whatever was selected |
| ReviewScreen.FormInitialDraft | src/components/Review.tsx:128-131 | the form starts from the edited review's book and text, or book 0 and empty text |
| ReviewScreen.FormChange | src/components/Review.tsx:138-144 | the book field stores parseInt of the value, the text field the value, each leaving the other alone |
| ReviewScreen.ChooseBookStoresId | src/pages/Review.tsx:156-162 | choosing a book option in the form stores that book's id |
| ReviewScreen.EditThenSave | src/pages/Review.tsx:364-381 | editing a review and saving issues an update of that review's id with the form's draft |
| BookReviewPage.RouteBookId | src/components/BookReviewPage.tsx:170 | a missing or empty route parameter gives book id 0 |
| BookReviewPage.EnabledQueries | src/components/BookReviewPage.tsx:173-183 | both the book and its reviews are queried exactly when the id is truthy |
| BookReviewPage.RouteQueries | src/components/BookReviewPage.tsx:170-183 | no route id disables both queries; a non-zero numeric id enables both for that id |
| BookReviewPage.ReviewListOf | src/components/BookReviewPage.tsx:140-147 | the placeholder shows exactly when there are no reviews, otherwise the reviews themselves |
| BookReviewPage.Render | src/components/BookReviewPage.tsx:199-231 | loading while either query loads; not found exactly when loaded without a book; otherwise the book, the write button exactly when the form is hidden, the form for the route's book |
| BookReviewPage.SubmitRequest | src/components/BookReviewPage.tsx:96-101 | the page's form posts a review for the route's book with the typed text |
| BookReviewPage.SettleCreate | src/components/BookReviewPage.tsx:186-192 | success hides the form and invalidates this book's reviews; failure changes nothing |
| BookReviewPage.WriteButtonToggles | src/components/BookReviewPage.tsx:213-228 | opening the form hides the write button and shows the form for the route's book; cancelling brings the button back and hides the form |
| BookReviewPage.WriteReviewForRoute | src/components/BookReviewPage.tsx:179-196 | for a `bookId` route parameter rendering n ≠ 0, the submitted review targets book n and its success invalidates one of the page's own query keys |
| Navbar.NonEmpty | src/components/Navbar.tsx:14 | filtering keeps only non-empty class names, and never more than it was given |
| Navbar.NonEmptySingle | src/components/Navbar.tsx:14 | a single class is kept exactly when it is non-empty; with NonEmptyAppend this fixes the filter on every list, order included |
| Navbar.NonEmptyKeeps | src/components/Navbar.tsx:14 | every non-empty class survives the filter |
| Navbar.ClassNames | src/components/Navbar.tsx:13-15 | the joined class string is empty exactly when every class is empty |
| Navbar.ClassNamesAppend | src/components/Navbar.tsx:13-15 | joining a concatenation is joining each part and placing the results side by side |
| Navbar.ClassNamesSingle | src/components/Navbar.tsx:13-15 | a single class joins to itself |
| Navbar.ClassNamesPair | src/components/Navbar.tsx:47-53 | two non-empty classes join with exactly one space |
| Navbar.PairClass | src/components/Navbar.tsx:91-97 | a link's class is its state class beside its layout's base class |
| Navbar.LinkClass | src/components/Navbar.tsx:47-53 | an active link's class is the active classes beside the base classes, an inactive one's the inactive classes beside them (same for the mobile menu at src/components/Navbar.tsx:91-97) |
| Navbar.NavigationTable | src/components/Navbar.tsx:8-11 | four entries with distinct names and distinct paths (documents the fixed table; no proof work) |
| Wiring.BookFormProps | src/components/Books.tsx:121-130 | the book form gets open/mode from the screen, the selected book exactly in edit mode (none in create mode), and the fetched categories or [] |
| Wiring.CategoryFormProps | src/pages/Category.tsx:112-120 | the category form gets open/mode from the screen and the selected category exactly in edit mode (none in create mode) |
| Wiring.AddBookThenSave | src/components/Books.tsx:58-86 | Add New then save POSTs to /books; success closes the form and refetches once; failure keeps it open with a banner |
| Wiring.EditBookThenSave | src/components/BookForm.tsx:42-78 | Edit then save PUTs the edited book's id with its loaded fields |
| Wiring.EditCategoryThenSave | src/components/CategoryForm.tsx:36-79 | Edit then save PUTs /api/category/{id} for the edited category |
| Wiring.OnDeleteEvents | src/components/Books.tsx:133-139 | the detail's onDelete is handleDeleteSuccess, so each call is one DeleteSucceeded screen event |
| Wiring.DeleteBookFromDetail | src/components/BookDetail.tsx:20-34 | confirming in the detail of book b sends DELETE /api/books/{b.id}; on success the single onDelete call refetches once and closes the detail (src/components/Books.tsx:88-91); on failure onDelete is not called, so the screen is unchanged and the detail of b stays open with a non-empty error |
| Wiring.CreateDune | src/components/BookForm.tsx:62-79 | a concrete create: the typed book is POSTed to /books |
| Wiring.CategoryInUse | src/components/CategoryDetail.tsx:20-33 | a concrete refused delete of category 7: DELETE /api/category/7, the server's message in the banner, the dialog closed and flags reset; onDelete is not called, so the screen is unchanged, nothing is refetched and the category's detail stays open |

## Left out

- Authentication tokens and the axios instance are left out. Every request carries `Authorization: Bearer <token>`, which has no effect on the screens' logic.
- react-query internals are left out: caching, retries, stale times and request deduplication. A query is modelled as its key plus a `(isLoading, data)` snapshot, and an invalidation as the list of keys invalidated.
- Concurrency is left out. Each mutation is modelled as pending, then settled. Interleavings of two in-flight requests are not modelled, and neither are responses arriving after an unmount or after the detail that sent them has closed (see ResourceScreen.LateDeleteBreaksWf).
- Date formatting (`formatDate` and `toLocaleDateString`) is left out because it depends on the locale. Timestamps are opaque strings.
- The image `onError` fallback is left out because it is a browser event on a failed load.
- Js.ParseInt recognises only the common whitespace characters. It ignores radix prefixes and does not lose precision above 2^53, because ids here are small decimal integers.
- Js.IntToDecimal always writes every digit, whereas a JavaScript template literal renders magnitudes of 10^21 and above in exponent form ("1e+21"); ids and pages never come near that.
- `window.confirm` is a boolean parameter, since it is a blocking browser dialog.
- `src/pages/Home.tsx` and `src/App.tsx` (routing and landing page) are not part of this model. App.tsx does not route BookReviewPage at all, so the `bookId` route parameter is taken as an input.
- Styling, icons, dark-mode classes and layout markup are left out. Of Navbar, the class-joining helper, the navigation table and the composition of each link's class are modelled; only the class literals and the markup are left out.
- The categories query that feeds BookForm's options is left out. Its data enters as a parameter of `Wiring.BookFormProps`.
- Navbar.PairClass states only how the two class strings are joined. It does not state the Tailwind class literals themselves, which are styling.
- Input `value={x || ""}` display coercions are left out because they only affect what a control shows.
- The review cards' date rendering and the `booksList` query behind the filter drop-down are left out. Only the option values are modelled, as integers rendered to strings.

=== FILE: book_display.dfy ===
/** The display fallbacks BookList and both BookDetail revisions share. */
module BookDisplay {
  import opened Wrappers
  import opened Js
  import opened Entities

  /** `book.category?.name || "Uncategorized"`. */
  function CategoryLabel(b: Book): (text: string)
    ensures b.category.Some? && b.category.value.name != "" ==> text == b.category.value.name
    ensures b.category.None? || b.category.value.name == "" ==> text == "Uncategorized"
    ensures text != ""
  {
    match b.category
    case Some(c) => StrOr(c.name, "Uncategorized")
    case None => "Uncategorized"
  }

  datatype Cover = Image(src: string) | NoImage

  /** The cover: the image when `image_url` is non-empty, the "No Image" placeholder otherwise. */
  function CoverOf(b: Book): (c: Cover)
    ensures c.Image? <==> b.imageUrl != ""
    ensures c.Image? ==> c.src == b.imageUrl
  {
    if b.imageUrl != "" then Image(b.imageUrl) else NoImage
  }

  /** The last-updated line: drawn, with the update time, only when it differs from the creation time. */
  function UpdatedLine(b: Book): (r: Option<string>)
    ensures r.Some? <==> b.updatedAt != b.createdAt
    ensures r.Some? ==> r.value == b.updatedAt
  {
    if b.updatedAt != b.createdAt then Some(b.updatedAt) else None
  }
}

=== FILE: book_form.dfy ===
/**
 * The book form modal: a draft of title, author, category id and image URL,
 * seeded from the first category in create mode and copied from the book in
 * edit mode, saved with POST `/books` or PUT `/books/{id}`.
 */
module BookForm {
  import opened Wrappers
  import opened Js
  import opened Entities
  import opened Http
  import opened FormController

  /** The props the Books screen passes. */
  datatype Props = Props(isOpen: bool, book: Option<Book>, isEditMode: bool, categories: seq<CategoryRef>)

  const SaveFallback: string := "An error occurred while saving the book"

  /** The draft `useState` starts from. */
  function InitialDraft(categories: seq<CategoryRef>): (d: BookDraft)
    ensures d.title == "" && d.author == "" && d.imageUrl == ""
    ensures |categories| > 0 ==> d.categoryId == Num(categories[0].id)
    ensures |categories| == 0 ==> d.categoryId == Num(0)
  {
    BookDraft("", "", Num(if |categories| > 0 then categories[0].id else 0), "")
  }

  /**
   * The effect on `[isEditMode, book]`: in edit mode with a book the draft is
   * replaced by the book's fields; otherwise the draft is left alone (it is
   * not reset).
   */
  function PopulateEffect(s: FormState<BookDraft>, isEditMode: bool, book: Option<Book>): (r: FormState<BookDraft>)
    ensures isEditMode && book.Some? ==>
      r.draft == BookDraft(book.value.title, book.value.author, Num(book.value.categoryId), book.value.imageUrl)
    ensures !(isEditMode && book.Some?) ==> r == s
    ensures r.isSubmitting == s.isSubmitting && r.error == s.error
  {
    if isEditMode && book.Some? then
      var b := book.value;
      s.(draft := BookDraft(b.title, b.author, Num(b.categoryId), b.imageUrl))
    else
      s
  }

  /** The state right after mounting: the initial draft with the effect applied. */
  function Mount(props: Props): (s: FormState<BookDraft>)
    ensures !SubmitDisabled(s) && !ErrorShown(s)
    ensures props.isEditMode && props.book.Some? ==>
      s.draft == BookDraft(props.book.value.title, props.book.value.author,
                           Num(props.book.value.categoryId), props.book.value.imageUrl)
    ensures !(props.isEditMode && props.book.Some?) ==> s.draft == InitialDraft(props.categories)
  {
    PopulateEffect(Fresh(InitialDraft(props.categories)), props.isEditMode, props.book)
  }

  /** The `name` attribute of the edited control. */
  datatype Field = Title | Author | CategoryId | ImageUrl

  /** `handleChange`: only the named field changes; the category id goes through `parseInt(value, 10)`. */
  function HandleChange(d: BookDraft, name: Field, value: string): (r: BookDraft)
    ensures r.title == (if name == Title then value else d.title)
    ensures r.author == (if name == Author then value else d.author)
    ensures r.categoryId == (if name == CategoryId then ParseInt(value) else d.categoryId)
    ensures r.imageUrl == (if name == ImageUrl then value else d.imageUrl)
  {
    match name
    case Title => d.(title := value)
    case Author => d.(author := value)
    case CategoryId => d.(categoryId := ParseInt(value))
    case ImageUrl => d.(imageUrl := value)
  }

  /** Choosing a category option (whose value is the rendered id) stores exactly that id. */
  lemma SelectCategoryStoresId(d: BookDraft, id: int)
    ensures HandleChange(d, CategoryId, IntToDecimal(id)).categoryId == Num(id)
  {
    ParseIntOfDecimal(id);
  }

  /** Edits to two different fields commute, and repeating an edit changes nothing more. */
  lemma ChangesCommute(d: BookDraft, f: Field, u: string, g: Field, v: string)
    ensures f != g ==> HandleChange(HandleChange(d, f, u), g, v) == HandleChange(HandleChange(d, g, v), f, u)
    ensures HandleChange(HandleChange(d, f, u), f, u) == HandleChange(d, f, u)
  {
  }

  /** The save request: PUT `/books/{id}` only in edit mode with a book, else POST `/books`. */
  function SaveRequest(isEditMode: bool, book: Option<Book>, draft: BookDraft): (r: Request)
    ensures r.body == BookBody(draft)
    ensures r.verb == PUT <==> isEditMode && book.Some?
    ensures r.verb == PUT ==> r.url == "/books/" + IntToDecimal(book.value.id)
    ensures r.verb != PUT ==> r.verb == POST && r.url == "/books"
  {
    if isEditMode && book.Some? then
      Request(PUT, "/books/" + IntToDecimal(book.value.id), BookBody(draft))
    else
      Request(POST, "/books", BookBody(draft))
  }

  /** `handleSubmit` with the awaited outcome. */
  function HandleSubmit(s: FormState<BookDraft>, props: Props, outcome: Outcome): (r: SubmitStep<BookDraft>)
    ensures r.request == SaveRequest(props.isEditMode, props.book, s.draft)
    ensures SubmitDisabled(r.pending) && !ErrorShown(r.pending)
    ensures !SubmitDisabled(r.settled) && r.settled.draft == s.draft
    ensures r.onSubmitCalled <==> outcome.Success?
    ensures outcome.Success? ==> !ErrorShown(r.settled)
    ensures outcome.Failure? ==> ErrorShown(r.settled) && r.settled.error == ErrorText(outcome.message, SaveFallback)
  {
    Submit(s, SaveRequest(props.isEditMode, props.book, s.draft), outcome, SaveFallback)
  }

  /** The modal: nothing while `isOpen` is false, otherwise the shared form view for books. */
  function Render(props: Props, s: FormState<BookDraft>): Option<View> {
    FormController.Render(props.isOpen, props.isEditMode, s, "Book")
  }
}

=== FILE: book_review_page.dfy ===
/**
 * The per-book review page: the id comes from its `bookId` route parameter,
 * both queries (the book and its reviews) run only for a truthy id, and a
 * "Write a Review" form creates a review for this book.
 */
module BookReviewPage {
  import opened Wrappers
  import opened Js
  import opened Entities
  import opened Http

  /** The book record this page fetches from `/api/books/{id}`. */
  datatype PageBook = PageBook(id: int, title: string, author: string, description: string,
                               coverImage: Option<string>, category: CategoryRef)

  /** `parseInt(bookId || "0")` of the route parameter. */
  function RouteBookId(param: Option<string>): (id: JsNumber)
    ensures param.None? || param.value == "" ==> id == Num(0)
  {
    ParseIntZero();
    ParseInt(StrOr(param.GetOr(""), "0"))
  }

  /** The keys of the two queries that run: both for a truthy id, neither otherwise. */
  function EnabledQueries(id: JsNumber): (keys: set<QueryKey>)
    ensures NumTruthy(id) ==> keys == {BookKey(id), BookReviewsKey(id)}
    ensures !NumTruthy(id) ==> keys == {}
  {
    if NumTruthy(id) then {BookKey(id), BookReviewsKey(id)} else {}
  }

  /** A missing parameter disables both queries; a rendered non-zero id enables both for that id. */
  lemma RouteQueries(n: int)
    ensures EnabledQueries(RouteBookId(None)) == {}
    ensures EnabledQueries(RouteBookId(Some(""))) == {}
    ensures n != 0 ==> EnabledQueries(RouteBookId(Some(IntToDecimal(n)))) == {BookKey(Num(n)), BookReviewsKey(Num(n))}
  {
    ParseIntOfDecimal(n);
    assert StrOr(IntToDecimal(n), "0") == IntToDecimal(n);
  }

  /** The review list below the book: a placeholder when there is nothing to show. */
  datatype ReviewList = Placeholder | Entries(reviews: seq<Review>)

  /** `<ReviewList reviews={reviewsData?.data || []} />`. */
  function ReviewListOf(data: Option<seq<Review>>): (r: ReviewList)
    ensures r.Placeholder? <==> data.None? || |data.value| == 0
    ensures r.Entries? ==> r.reviews == data.value
  {
    var reviews := data.GetOr([]);
    if |reviews| == 0 then Placeholder else Entries(reviews)
  }

  /** What the page draws. `form` is the id the open review form submits for. */
  datatype Screen =
    | Loading
    | NotFound
    | Loaded(book: PageBook, writeButton: bool, form: Option<JsNumber>, reviews: ReviewList)

  function Render(showForm: bool, id: JsNumber, book: QueryState<PageBook>, reviews: QueryState<seq<Review>>): (r: Screen)
    ensures r.Loading? <==> book.isLoading || reviews.isLoading
    ensures r.NotFound? <==> !book.isLoading && !reviews.isLoading && book.data.None?
    ensures r.Loaded? ==> book.data == Some(r.book) && r.reviews == ReviewListOf(reviews.data)
    ensures r.Loaded? ==> (r.writeButton <==> !showForm) && (r.form.Some? <==> showForm)
    ensures r.Loaded? && showForm ==> r.form == Some(id)
  {
    if book.isLoading || reviews.isLoading then Loading
    else if book.data.None? then NotFound
    else Loaded(book.data.value, !showForm, if showForm then Some(id) else None, ReviewListOf(reviews.data))
  }

  /** The form's submit: the page's id with the typed text, as a POST to `/api/review`. */
  function SubmitRequest(id: JsNumber, ulasan: string): (r: Request)
    ensures r.verb == POST && r.url == "/api/review"
    ensures r.body.ReviewBody? && r.body.review.bookId == id && r.body.review.ulasan == ulasan
  {
    Request(POST, "/api/review", ReviewBody(ReviewDraft(id, ulasan)))
  }

  /** The form visibility and the invalidated keys after the create settles. */
  datatype Settled = Settled(showForm: bool, invalidated: seq<QueryKey>)

  /** Success invalidates this book's reviews and hides the form; failure does nothing. */
  function SettleCreate(showForm: bool, id: JsNumber, outcome: Outcome): (r: Settled)
    ensures outcome.Success? ==> !r.showForm && r.invalidated == [BookReviewsKey(id)]
    ensures outcome.Failure? ==> r.showForm == showForm && r.invalidated == []
  {
    if outcome.Success? then Settled(false, [BookReviewsKey(id)]) else Settled(showForm, [])
  }

  /**
   * For a `bookId` parameter rendering n, writing a review sends it for n, and
   * the invalidated key is the very key of the page's review query.
   */
  lemma WriteReviewForRoute(n: int, text: string)
    requires n != 0
    ensures var id := RouteBookId(Some(IntToDecimal(n)));
      SubmitRequest(id, text).body == ReviewBody(ReviewDraft(Num(n), text))
      && forall k | k in SettleCreate(true, id, Success).invalidated :: k in EnabledQueries(id)
  {
    RouteQueries(n);
    ParseIntOfDecimal(n);
    assert StrOr(IntToDecimal(n), "0") == IntToDecimal(n);
  }

  /**
   * "Write a Review" (which sets showForm) replaces the button by the form for
   * the page's book, and the form's cancel (which clears it) brings the button back.
   */
  lemma WriteButtonToggles(id: JsNumber, b: PageBook, reviews: QueryState<seq<Review>>)
    requires !reviews.isLoading
    ensures Render(true, id, QueryState(false, Some(b)), reviews).Loaded?
    ensures !Render(true, id, QueryState(false, Some(b)), reviews).writeButton
    ensures Render(true, id, QueryState(false, Some(b)), reviews).form == Some(id)
    ensures Render(false, id, QueryState(false, Some(b)), reviews).writeButton
    ensures Render(false, id, QueryState(false, Some(b)), reviews).form == None
  {
  }
}

=== FILE: category_form.dfy ===
/**
 * The category form modal: a name/description draft, synchronised with the
 * props on every change of mode or category, saved with POST
 * `/api/category` or PUT `/api/category/{id}`.
 */
module CategoryForm {
  import opened Wrappers
  import opened Js
  import opened Entities
  import opened Http
  import opened FormController

  datatype Props = Props(isOpen: bool, category: Option<Category>, isEditMode: bool)

  const SaveFallback: string := "An error occurred while saving the category"

  const EmptyDraft: CategoryDraft := CategoryDraft("", "")

  /**
   * The effect on `[isEditMode, category]`: copy the category in edit mode,
   * otherwise reset to empty strings.
   */
  function SyncEffect(s: FormState<CategoryDraft>, isEditMode: bool, category: Option<Category>): (r: FormState<CategoryDraft>)
    ensures isEditMode && category.Some? ==>
      r.draft == CategoryDraft(category.value.name, category.value.description)
    ensures !(isEditMode && category.Some?) ==> r.draft == EmptyDraft
    ensures r.isSubmitting == s.isSubmitting && r.error == s.error
  {
    if isEditMode && category.Some? then
      s.(draft := CategoryDraft(category.value.name, category.value.description))
    else
      s.(draft := EmptyDraft)
  }

  /** The draft depends only on the props, never on what was typed before. */
  lemma SyncForgetsEdits(s: FormState<CategoryDraft>, s': FormState<CategoryDraft>, isEditMode: bool, category: Option<Category>)
    ensures SyncEffect(s, isEditMode, category).draft == SyncEffect(s', isEditMode, category).draft
  {
  }

  function Mount(props: Props): (s: FormState<CategoryDraft>)
    ensures !SubmitDisabled(s) && !ErrorShown(s)
    ensures props.isEditMode && props.category.Some? ==>
      s.draft == CategoryDraft(props.category.value.name, props.category.value.description)
    ensures !(props.isEditMode && props.category.Some?) ==> s.draft == EmptyDraft
  {
    SyncEffect(Fresh(EmptyDraft), props.isEditMode, props.category)
  }

  datatype Field = Name | Description

  /** `handleChange`: only the named field changes, to the typed text verbatim. */
  function HandleChange(d: CategoryDraft, name: Field, value: string): (r: CategoryDraft)
    ensures r.name == (if name == Name then value else d.name)
    ensures r.description == (if name == Description then value else d.description)
  {
    match name
    case Name => d.(name := value)
    case Description => d.(description := value)
  }

  /** Typing into every field yields exactly the typed draft, whatever was there before. */
  lemma TypedDraft(d: CategoryDraft, name: string, description: string)
    ensures HandleChange(HandleChange(d, Name, name), Description, description) == CategoryDraft(name, description)
  {
  }

  /** PUT `/api/category/{id}` exactly in edit mode with a category, else POST `/api/category`. */
  function SaveRequest(isEditMode: bool, category: Option<Category>, draft: CategoryDraft): (r: Request)
    ensures r.body == CategoryBody(draft)
    ensures r.verb == PUT <==> isEditMode && category.Some?
    ensures r.verb == PUT ==> r.url == "/api/category/" + IntToDecimal(category.value.id)
    ensures r.verb != PUT ==> r.verb == POST && r.url == "/api/category"
  {
    if isEditMode && category.Some? then
      Request(PUT, "/api/category/" + IntToDecimal(category.value.id), CategoryBody(draft))
    else
      Request(POST, "/api/category", CategoryBody(draft))
  }

  function HandleSubmit(s: FormState<CategoryDraft>, props: Props, outcome: Outcome): (r: SubmitStep<CategoryDraft>)
    ensures r.request == SaveRequest(props.isEditMode, props.category, s.draft)
    ensures SubmitDisabled(r.pending) && !ErrorShown(r.pending)
    ensures !SubmitDisabled(r.settled) && r.settled.draft == s.draft
    ensures r.onSubmitCalled <==> outcome.Success?
    ensures outcome.Success? ==> !ErrorShown(r.settled)
    ensures outcome.Failure? ==> ErrorShown(r.settled) && r.settled.error == ErrorText(outcome.message, SaveFallback)
  {
    Submit(s, SaveRequest(props.isEditMode, props.category, s.draft), outcome, SaveFallback)
  }

  /** The modal: nothing while `isOpen` is false, otherwise the shared form view for categories. */
  function Render(props: Props, s: FormState<CategoryDraft>): Option<View> {
    FormController.Render(props.isOpen, props.isEditMode, s, "Category")
  }
}

=== FILE: delete_flow.dfy ===
/**
 * The two-phase delete of the detail modals (both BookDetail revisions and
 * CategoryDetail): "Delete" only opens a confirmation; "Confirm" sends the
 * DELETE; on success the parent's `onDelete` runs, on failure the dialog
 * closes and the error is shown inline.
 */
module DeleteFlow {
  import opened Wrappers
  import opened Js
  import opened Http

  /** What the detail shows, and so what its DELETE addresses. */
  datatype Target = BookTarget(id: int) | CategoryTarget(id: int)

  function DeleteUrl(t: Target): string {
    match t
    case BookTarget(id) => "/api/books/" + IntToDecimal(id)
    case CategoryTarget(id) => "/api/category/" + IntToDecimal(id)
  }

  function Fallback(t: Target): string {
    match t
    case BookTarget(_) => "Failed to delete book"
    case CategoryTarget(_) => "Failed to delete category"
  }

  datatype DeleteState = DeleteState(showConfirm: bool, isDeleting: bool, error: string)

  const Initial: DeleteState := DeleteState(false, false, "")

  /** A freshly opened detail: no dialog, nothing in flight, no error. */
  lemma InitialQuiet()
    ensures !Initial.showConfirm && !ButtonsDisabled(Initial) && Initial.error == ""
    ensures Wf(Initial)
  {
  }

  /** Both dialog buttons, Cancel and Confirm, are disabled while deleting. */
  predicate ButtonsDisabled(s: DeleteState) {
    s.isDeleting
  }

  /** A step that issues at most one request and calls `onDelete` some number of times. */
  datatype Step = Step(next: DeleteState, request: Option<Request>, onDeleteCalls: nat)

  /** The detail's "Delete" button: open the confirmation, nothing else. */
  function RequestDelete(s: DeleteState): (r: Step)
    ensures r.next.showConfirm && r.request == None && r.onDeleteCalls == 0
    ensures r.next.isDeleting == s.isDeleting && r.next.error == s.error
  {
    Step(s.(showConfirm := true), None, 0)
  }

  /** The dialog's "Cancel": hide the confirmation, nothing else. */
  function CancelDelete(s: DeleteState): (r: Step)
    ensures !r.next.showConfirm && r.request == None && r.onDeleteCalls == 0
    ensures r.next.isDeleting == s.isDeleting && r.next.error == s.error
  {
    Step(s.(showConfirm := false), None, 0)
  }

  /** The confirm cycle: the in-flight state, the request, the settled state and the callback count. */
  datatype ConfirmStep = ConfirmStep(pending: DeleteState, request: Request, settled: DeleteState, onDeleteCalls: nat)

  /** `handleDelete` with the awaited outcome. */
  function ConfirmDelete(s: DeleteState, target: Target, outcome: Outcome): (r: ConfirmStep)
    ensures r.pending == DeleteState(s.showConfirm, true, "")
    ensures r.request == Request(DELETE, DeleteUrl(target), NoBody)
    ensures outcome.Success? ==> r.onDeleteCalls == 1 && r.settled == r.pending
    ensures outcome.Failure? ==> r.onDeleteCalls == 0
    ensures outcome.Failure? ==>
      r.settled == DeleteState(false, false, ErrorText(outcome.message, Fallback(target)))
    ensures outcome.Failure? ==> r.settled.error != ""
  {
    var pending := s.(isDeleting := true, error := "");
    match outcome
    case Success => ConfirmStep(pending, Request(DELETE, DeleteUrl(target), NoBody), pending, 1)
    case Failure(message) =>
      var settled := pending.(error := ErrorText(message, Fallback(target)), isDeleting := false, showConfirm := false);
      ConfirmStep(pending, Request(DELETE, DeleteUrl(target), NoBody), settled, 0)
  }

  /** The user actions on the detail, with the outcome of a confirmed delete. */
  datatype Action = DeletePressed | CancelPressed | ConfirmPressed(outcome: Outcome)

  /** A dialog button can be pressed only while the dialog is drawn and not disabled. */
  predicate Enabled(s: DeleteState, a: Action)
    ensures a.DeletePressed? ==> Enabled(s, a)
    ensures !a.DeletePressed? ==> (Enabled(s, a) <==> s.showConfirm && !s.isDeleting)
  {
    match a
    case DeletePressed => true
    case CancelPressed => s.showConfirm && !ButtonsDisabled(s)
    case ConfirmPressed(_) => s.showConfirm && !ButtonsDisabled(s)
  }

  /** The state after the action settles. */
  function After(s: DeleteState, target: Target, a: Action): DeleteState {
    match a
    case DeletePressed => RequestDelete(s).next
    case CancelPressed => CancelDelete(s).next
    case ConfirmPressed(o) => ConfirmDelete(s, target, o).settled
  }

  /** While a delete is in flight its dialog stays on screen. */
  ghost predicate Wf(s: DeleteState) {
    s.isDeleting ==> s.showConfirm
  }

  lemma ActionKeepsWf(s: DeleteState, target: Target, a: Action)
    requires Wf(s) && Enabled(s, a)
    ensures Wf(After(s, target, a))
  {
  }

  /** Once a delete has succeeded nothing in the dialog can fire again: no second request. */
  lemma NoSecondDelete(s: DeleteState, target: Target, a: Action)
    requires Enabled(s, ConfirmPressed(Success))
    ensures var done := ConfirmDelete(s, target, Success).settled;
      Enabled(done, a) ==> a == DeletePressed
  {
  }

  /**
   * After a failure the user may retry: the Delete button reopens an enabled
   * dialog, and confirming again clears the old error while the retry is in flight.
   */
  lemma FailureAllowsRetry(s: DeleteState, target: Target, message: Option<string>, o: Outcome)
    ensures var failed := ConfirmDelete(s, target, Failure(message)).settled;
      var reopened := RequestDelete(failed).next;
      Enabled(reopened, ConfirmPressed(o)) && Enabled(reopened, CancelPressed)
      && ConfirmDelete(reopened, target, o).pending.error == ""
  {
  }
}

=== FILE: entities.dfy ===
/**
 * The records the screens hold. They are server-owned; the client only keeps
 * copies, so no field carries an invariant here. Dates stay opaque strings.
 */
module Entities {
  import opened Wrappers
  import opened Js

  /** The `{ id, name }` category reference embedded in books and reviews. */
  datatype CategoryRef = CategoryRef(id: int, name: string)

  /** A book row: `category` may be absent in the payload (the views read it through `?.`). */
  datatype Book = Book(
    id: int, title: string, author: string, categoryId: int,
    category: Option<CategoryRef>, imageUrl: string,
    createdAt: string, updatedAt: string)

  datatype Category = Category(
    id: int, name: string, description: string, userId: int,
    createdAt: string, updatedAt: string)

  /** The snapshot of the reviewed book the server embeds in every review. */
  datatype ReviewedBook = ReviewedBook(id: int, title: string, coverImage: Option<string>, category: CategoryRef)

  datatype Review = Review(
    id: int, ulasan: string, bookId: int,
    createdAt: string, updatedAt: string, book: ReviewedBook)

  /** Body of a book save; `categoryId` comes from `parseInt` and so may be NaN. */
  datatype BookDraft = BookDraft(title: string, author: string, categoryId: JsNumber, imageUrl: string)

  datatype CategoryDraft = CategoryDraft(name: string, description: string)

  /** Body of a review save (`CreateReviewDTO`). */
  datatype ReviewDraft = ReviewDraft(bookId: JsNumber, ulasan: string)
}

=== FILE: form_controller.dfy ===
/**
 * The submit cycle BookForm and CategoryForm share: raise the submitting
 * flag and clear the error, await the save, then either report success to
 * the parent or show the server's message (or a fixed text), and always
 * lower the flag. The draft is kept, so a failed save can be retried.
 */
module FormController {
  import opened Wrappers
  import opened Http

  datatype FormState<D> = FormState(draft: D, isSubmitting: bool, error: string)

  /** A freshly mounted form: not submitting, no error. */
  function Fresh<D>(draft: D): (s: FormState<D>)
    ensures s.draft == draft && !SubmitDisabled(s) && !ErrorShown(s)
  {
    FormState(draft, false, "")
  }

  /** The submit button is disabled exactly while a save is in flight. */
  predicate SubmitDisabled<D>(s: FormState<D>) {
    s.isSubmitting
  }

  /** The error banner is drawn exactly when the error text is non-empty. */
  predicate ErrorShown<D>(s: FormState<D>) {
    s.error != ""
  }

  /**
   * One submit: `pending` is the state while the request is in flight,
   * `settled` the state after the outcome, and `onSubmitCalled` whether the
   * parent's `onSubmit` ran.
   */
  datatype SubmitStep<D> = SubmitStep(pending: FormState<D>, request: Request, settled: FormState<D>, onSubmitCalled: bool)

  function Submit<D>(s: FormState<D>, request: Request, outcome: Outcome, fallback: string): (r: SubmitStep<D>)
    ensures r.request == request
    ensures SubmitDisabled(r.pending) && !ErrorShown(r.pending) && r.pending.draft == s.draft
    ensures !SubmitDisabled(r.settled) && r.settled.draft == s.draft
    ensures r.onSubmitCalled <==> outcome.Success?
    ensures outcome.Success? ==> !ErrorShown(r.settled)
    ensures outcome.Failure? ==> r.settled.error == ErrorText(outcome.message, fallback)
    ensures outcome.Failure? && fallback != "" ==> ErrorShown(r.settled)
  {
    var pending := s.(isSubmitting := true, error := "");
    match outcome
    case Success => SubmitStep(pending, request, pending.(isSubmitting := false), true)
    case Failure(message) =>
      SubmitStep(pending, request, pending.(isSubmitting := false, error := ErrorText(message, fallback)), false)
  }

  /** A failed save that is retried and then succeeds clears the earlier error. */
  lemma RetryClearsError<D>(s: FormState<D>, request: Request, message: Option<string>, fallback: string)
    ensures var first := Submit(s, request, Failure(message), fallback).settled;
      var second := Submit(first, request, Success, fallback);
      second.onSubmitCalled && !ErrorShown(second.settled) && second.settled.draft == s.draft
  {
  }

  /** What a form modal draws, or None when it is closed. */
  datatype View = View(heading: string, errorBanner: Option<string>, submitDisabled: bool, submitLabel: string)

  /**
   * The modal of a form for entities called `noun`: a heading naming the
   * mode, the error banner, and a submit button that is disabled and reads
   * "Saving..." while a save is in flight.
   */
  function Render<D>(isOpen: bool, isEditMode: bool, s: FormState<D>, noun: string): (v: Option<View>)
    ensures v.Some? <==> isOpen
    ensures v.Some? ==> v.value.heading == (if isEditMode then "Edit " else "Add New ") + noun
    ensures v.Some? ==> (v.value.submitDisabled <==> SubmitDisabled(s))
    ensures v.Some? ==> (v.value.errorBanner.Some? <==> ErrorShown(s))
    ensures v.Some? && ErrorShown(s) ==> v.value.errorBanner == Some(s.error)
    ensures v.Some? && SubmitDisabled(s) ==> v.value.submitLabel == "Saving..."
    ensures v.Some? && !SubmitDisabled(s) ==> v.value.submitLabel == (if isEditMode then "Update " else "Add ") + noun
  {
    if !isOpen then
      None
    else
      Some(View(
        (if isEditMode then "Edit " else "Add New ") + noun,
        if s.error != "" then Some(s.error) else None,
        s.isSubmitting,
        if s.isSubmitting then "Saving..." else (if isEditMode then "Update " else "Add ") + noun))
  }
}

=== FILE: http.dfy ===
/**
 * Requests as emitted values and awaited calls as injected outcomes. The
 * axios instance, its base URL and the bearer header are not modelled.
 */
module Http {
  import opened Wrappers
  import opened Js
  import opened Entities

  datatype Verb = GET | POST | PUT | DELETE

  datatype Body = NoBody | BookBody(book: BookDraft) | CategoryBody(category: CategoryDraft) | ReviewBody(review: ReviewDraft)

  datatype Request = Request(verb: Verb, url: string, body: Body)

  /** How an awaited call ended; `message` is `err.response?.data?.message`. */
  datatype Outcome = Success | Failure(message: Option<string>)

  /** A react-query cache key, as the components spell them. */
  datatype QueryKey =
    | BookListKey(page: int)
    | CategoryListKey(page: int)
    | ReviewsListKey
    | BookReviewsKey(bookId: JsNumber)
    | BookKey(bookId: JsNumber)

  /** What a query currently exposes to the component: its loading flag and its data, if any. */
  datatype QueryState<T> = QueryState(isLoading: bool, data: Option<T>)

  /**
   * `err.response?.data?.message || fallback`: the server's message when it is
   * present and non-empty, the fixed per-operation text otherwise.
   */
  function ErrorText(message: Option<string>, fallback: string): (r: string)
    ensures message.Some? && message.value != "" ==> r == message.value
    ensures message.None? || message.value == "" ==> r == fallback
    ensures fallback != "" ==> r != ""
  {
    StrOr(message.GetOr(""), fallback)
  }
}

=== FILE: js.dfy ===
/**
 * The few JavaScript value semantics the components rely on: truthiness of
 * numbers and strings, `a || b`, template-literal rendering of integers
 * (`${n}`) and `parseInt(s, 10)`.
 */
module Js {

  /** A number as the components hold it: an integer, or the NaN a failed `parseInt` returns. */
  datatype JsNumber = Num(n: int) | NaN

  /** Truthiness of a number: `0` and `NaN` are falsy. */
  predicate NumTruthy(x: JsNumber) {
    x.Num? && x.n != 0
  }

  /** `a || b` on strings: the empty string is the only falsy string. */
  function StrOr(a: string, b: string): (r: string)
    ensures r != "" <==> a != "" || b != ""
  {
    if a != "" then a else b
  }

  /** `a || b` on numbers. */
  function NumOr(a: JsNumber, b: JsNumber): (r: JsNumber)
    ensures NumTruthy(r) <==> NumTruthy(a) || NumTruthy(b)
  {
    if NumTruthy(a) then a else b
  }

  predicate IsDigit(c: char) {
    '0' <= c <= '9'
  }

  predicate AllDigits(s: string) {
    forall i | 0 <= i < |s| :: IsDigit(s[i])
  }

  function DigitChar(d: nat): (c: char)
    requires d < 10
    ensures IsDigit(c)
  {
    (('0' as int) + d) as char
  }

  function DigitValue(c: char): (d: nat)
    requires IsDigit(c)
    ensures d < 10 && DigitChar(d) == c
  {
    (c as int) - ('0' as int)
  }

  /** Decimal digits of a natural number, most significant first, without leading zeros. */
  function NatToDecimal(n: nat): (s: string)
    ensures |s| > 0 && AllDigits(s)
    ensures |s| > 1 ==> s[0] != '0'
    decreases n
  {
    if n < 10 then [DigitChar(n)] else NatToDecimal(n / 10) + [DigitChar(n % 10)]
  }

  /** `${n}` for an integer `n`: a minus sign for negatives, then the decimal digits. */
  function IntToDecimal(n: int): (s: string)
    ensures |s| > 0
    ensures n < 0 <==> s[0] == '-'
    ensures n >= 0 <==> AllDigits(s)
  {
    if n < 0 then "-" + NatToDecimal(-n) else NatToDecimal(n)
  }

  /** `${x}` for a number: NaN renders as the text "NaN". */
  function NumberToString(x: JsNumber): string {
    match x
    case Num(n) => IntToDecimal(n)
    case NaN => "NaN"
  }

  /** The value of a string of decimal digits, read most significant first. */
  function DigitsValue(ds: string): nat
    requires AllDigits(ds)
    decreases |ds|
  {
    if ds == [] then 0 else DigitsValue(ds[..|ds| - 1]) * 10 + DigitValue(ds[|ds| - 1])
  }

  /** The longest prefix of `s` made of decimal digits. */
  function DigitPrefix(s: string): (ds: string)
    ensures AllDigits(ds) && ds <= s
    ensures |ds| < |s| ==> !IsDigit(s[|ds|])
    decreases |s|
  {
    if |s| > 0 && IsDigit(s[0]) then [s[0]] + DigitPrefix(s[1..]) else []
  }

  /** The white-space characters `parseInt` skips before the number. */
  predicate IsJsSpace(c: char) {
    c == ' ' || c == '\t' || c == '\n' || c == '\r' || c == '\U{000B}' || c == '\U{000C}'
    || c == '\U{00A0}' || c == '\U{FEFF}'
  }

  /** `s` without its leading white space. */
  function TrimStart(s: string): (t: string)
    ensures |t| <= |s| && t == s[|s| - |t|..]
    ensures |t| > 0 ==> !IsJsSpace(t[0])
    ensures forall i | 0 <= i < |s| - |t| :: IsJsSpace(s[i])
    decreases |s|
  {
    if |s| > 0 && IsJsSpace(s[0]) then TrimStart(s[1..]) else s
  }

  /** The text after an optional leading sign. */
  function Unsigned(t: string): (u: string)
    ensures |u| <= |t| && u == t[|t| - |u|..]
    ensures |t| - |u| <= 1
  {
    if |t| > 0 && (t[0] == '-' || t[0] == '+') then t[1..] else t
  }

  /**
   * `parseInt(s, 10)`: skip leading white space, read an optional sign, then
   * the longest run of decimal digits; NaN when that run is empty. Whatever
   * follows the digits is ignored.
   */
  function ParseInt(s: string): (r: JsNumber)
    ensures (forall i | 0 <= i < |s| :: !IsDigit(s[i])) ==> r == NaN
  {
    var t := TrimStart(s);
    var ds := DigitPrefix(Unsigned(t));
    if ds == [] then
      NaN
    else
      assert ds[0] == s[|s| - |Unsigned(t)|];
      var v: int := DigitsValue(ds);
      Num(if |t| > 0 && t[0] == '-' then -v else v)
  }

  /** Reading back the digits of `NatToDecimal(n)` gives `n`. */
  lemma {:induction false} DecimalValueRoundTrip(n: nat)
    ensures DigitsValue(NatToDecimal(n)) == n
    decreases n
  {
    if n >= 10 {
      var s := NatToDecimal(n);
      assert s[..|s| - 1] == NatToDecimal(n / 10);
      DecimalValueRoundTrip(n / 10);
    }
  }

  /** The digit run of a digit string followed by a non-digit is that digit string. */
  lemma {:induction false} DigitPrefixOfDigits(ds: string, rest: string)
    requires AllDigits(ds)
    requires rest == [] || !IsDigit(rest[0])
    ensures DigitPrefix(ds + rest) == ds
    decreases |ds|
  {
    if ds != [] {
      assert (ds + rest)[1..] == ds[1..] + rest;
      DigitPrefixOfDigits(ds[1..], rest);
    }
  }

  /**
   * `parseInt` reads back every rendered integer, whatever non-digit text
   * follows it: `parseInt(`${n}` + rest) == n`.
   */
  lemma ParseIntRoundTrip(n: int, rest: string)
    requires rest == [] || !IsDigit(rest[0])
    ensures ParseInt(IntToDecimal(n) + rest) == Num(n)
  {
    var m: nat := if n < 0 then -n else n;
    var s := IntToDecimal(n) + rest;
    DecimalShape(n, rest);
    DigitPrefixOfDigits(NatToDecimal(m), rest);
    DecimalValueRoundTrip(m);
    ParseIntOfSignedDigits(s, NatToDecimal(m));
  }

  /** A rendered integer starts with no white space, and its unsigned part is its digits. */
  lemma DecimalShape(n: int, rest: string)
    ensures var s := IntToDecimal(n) + rest;
      TrimStart(s) == s && Unsigned(s) == NatToDecimal(if n < 0 then -n else n) + rest
      && (s[0] == '-' <==> n < 0)
  {
    var s := IntToDecimal(n) + rest;
    if n < 0 {
      var m := NatToDecimal(-n);
      assert s == ['-'] + (m + rest);
      UnsignedAfterMinus(m + rest);
    } else {
      var m := NatToDecimal(n);
      assert s == m + rest;
      assert s[0] == m[0];
      StartsWithDigit(s);
    }
  }

  /** Text starting with a minus sign is not trimmed and loses exactly that sign. */
  lemma UnsignedAfterMinus(u: string)
    ensures TrimStart(['-'] + u) == ['-'] + u && Unsigned(['-'] + u) == u
  {
    assert (['-'] + u)[1..] == u;
  }

  /** Text starting with a digit is neither trimmed nor unsigned. */
  lemma StartsWithDigit(s: string)
    requires |s| > 0 && IsDigit(s[0])
    ensures TrimStart(s) == s && Unsigned(s) == s
  {
    var c := s[0];
    assert c as int >= 48 && c as int <= 57;
    assert !IsJsSpace(c);
    assert c != '-' && c != '+';
  }

  /** `parseInt` of text that starts with its sign or digits, once the digit run is known. */
  lemma ParseIntOfSignedDigits(s: string, ds: string)
    requires TrimStart(s) == s && DigitPrefix(Unsigned(s)) == ds && ds != []
    ensures ParseInt(s) == Num(if s[0] == '-' then -(DigitsValue(ds) as int) else DigitsValue(ds))
  {
  }

  /** The route-parameter case: a rendered integer alone parses to itself. */
  lemma ParseIntOfDecimal(n: int)
    ensures ParseInt(IntToDecimal(n)) == Num(n)
  {
    ParseIntRoundTrip(n, []);
    assert IntToDecimal(n) + [] == IntToDecimal(n);
  }

  /** The default route text "0" parses to 0. */
  lemma ParseIntZero()
    ensures ParseInt("0") == Num(0)
  {
    ParseIntOfDecimal(0);
    assert IntToDecimal(0) == "0";
  }
}

=== FILE: navbar.dfy ===
/**
 * The navigation bar: the fixed link table and the `classNames` helper that
 * builds each link's class list from its active and base classes.
 */
module Navbar {

  /** `classes.filter(Boolean)`: the non-empty strings, in their order. */
  function NonEmpty(classes: seq<string>): (r: seq<string>)
    ensures forall i | 0 <= i < |r| :: r[i] != ""
    ensures |r| <= |classes|
    decreases |classes|
  {
    if classes == [] then []
    else (if classes[0] != "" then [classes[0]] else []) + NonEmpty(classes[1..])
  }

  /** `parts.join(" ")`. */
  function JoinSpace(parts: seq<string>): string
    decreases |parts|
  {
    if |parts| == 0 then "" else if |parts| == 1 then parts[0] else parts[0] + " " + JoinSpace(parts[1..])
  }

  /** `classNames(...classes)`. */
  function ClassNames(classes: seq<string>): (r: string)
    ensures r == "" <==> AllEmpty(classes)
  {
    NonEmptyNil(classes);
    JoinSpaceEmpty(NonEmpty(classes));
    JoinSpace(NonEmpty(classes))
  }

  /** Two class lists side by side: a single space between them, none around an empty one. */
  function Beside(a: string, b: string): string {
    if a == "" then b else if b == "" then a else a + " " + b
  }

  predicate AllEmpty(classes: seq<string>) {
    forall i | 0 <= i < |classes| :: classes[i] == ""
  }

  lemma {:induction false} NonEmptyAppend(xs: seq<string>, ys: seq<string>)
    ensures NonEmpty(xs + ys) == NonEmpty(xs) + NonEmpty(ys)
    decreases |xs|
  {
    if xs != [] {
      assert (xs + ys)[0] == xs[0];
      assert (xs + ys)[1..] == xs[1..] + ys;
      NonEmptyAppend(xs[1..], ys);
      var head := if xs[0] != "" then [xs[0]] else [];
      assert NonEmpty(xs + ys) == head + (NonEmpty(xs[1..]) + NonEmpty(ys));
      assert NonEmpty(xs) == head + NonEmpty(xs[1..]);
    } else {
      assert xs + ys == ys;
    }
  }

  /** One class is kept exactly when it is non-empty; with `NonEmptyAppend` this fixes `NonEmpty` on every list. */
  lemma NonEmptySingle(c: string)
    ensures NonEmpty([c]) == (if c != "" then [c] else [])
  {
    assert [c][1..] == [];
  }

  /** Every non-empty class survives the filter. */
  lemma {:induction false} NonEmptyKeeps(classes: seq<string>, i: int)
    requires 0 <= i < |classes| && classes[i] != ""
    ensures classes[i] in NonEmpty(classes)
    decreases |classes|
  {
    if i > 0 {
      NonEmptyKeeps(classes[1..], i - 1);
    }
  }

  lemma {:induction false} NonEmptyNil(xs: seq<string>)
    ensures NonEmpty(xs) == [] <==> AllEmpty(xs)
    decreases |xs|
  {
    if xs != [] {
      NonEmptyNil(xs[1..]);
      if AllEmpty(xs[1..]) && xs[0] == "" {
        assert AllEmpty(xs) by {
          forall i | 0 <= i < |xs| ensures xs[i] == "" {
            if i > 0 { assert xs[i] == xs[1..][i - 1]; }
          }
        }
      }
    }
  }

  /** Joining non-empty parts gives the empty string only for no parts. */
  lemma {:induction false} JoinSpaceEmpty(parts: seq<string>)
    requires forall i | 0 <= i < |parts| :: parts[i] != ""
    ensures JoinSpace(parts) == "" <==> parts == []
  {
    if |parts| > 1 {
      assert |JoinSpace(parts)| >= |parts[0]| > 0;
    }
  }

  lemma {:induction false} JoinSpaceAppend(ps: seq<string>, qs: seq<string>)
    requires forall i | 0 <= i < |ps| :: ps[i] != ""
    requires forall i | 0 <= i < |qs| :: qs[i] != ""
    ensures JoinSpace(ps + qs) == Beside(JoinSpace(ps), JoinSpace(qs))
    decreases |ps|
  {
    JoinSpaceEmpty(qs);
    if |ps| == 1 {
      if qs != [] {
        assert (ps + qs)[1..] == qs;
      }
    } else if |ps| > 1 {
      assert (ps + qs)[1..] == ps[1..] + qs;
      JoinSpaceAppend(ps[1..], qs);
      JoinSpaceEmpty(ps[1..]);
    } else {
      assert ps + qs == qs;
    }
  }

  /**
   * Concatenating argument lists places their class strings side by side, in
   * the same order: empty arguments vanish and one space separates the rest.
   */
  lemma ClassNamesAppend(xs: seq<string>, ys: seq<string>)
    ensures ClassNames(xs + ys) == Beside(ClassNames(xs), ClassNames(ys))
  {
    NonEmptyAppend(xs, ys);
    JoinSpaceAppend(NonEmpty(xs), NonEmpty(ys));
  }

  /** A single argument is returned as it is. */
  lemma ClassNamesSingle(a: string)
    ensures ClassNames([a]) == a
  {
    assert NonEmpty([a]) == (if a != "" then [a] else []) + NonEmpty([]);
  }

  /** Two non-empty arguments are joined with exactly one space, first argument first. */
  lemma ClassNamesPair(a: string, b: string)
    requires a != "" && b != ""
    ensures ClassNames([a, b]) == a + " " + b
  {
    ClassNamesAppend([a], [b]);
    ClassNamesSingle(a);
    ClassNamesSingle(b);
    assert [a] + [b] == [a, b];
  }

  datatype NavItem = NavItem(name: string, to: string)

  /** The fixed navigation table, in display order. */
  const Navigation: seq<NavItem> := [
    NavItem("Post", "/posts"),
    NavItem("Books", "/books"),
    NavItem("Categories", "/categories"),
    NavItem("Review", "/review")
  ]

  /** The table has four entries with distinct names and distinct routes. */
  lemma NavigationTable()
    ensures |Navigation| == 4
    ensures forall i, j | 0 <= i < j < |Navigation| ::
              Navigation[i].name != Navigation[j].name && Navigation[i].to != Navigation[j].to
  {
  }

  /** The desktop bar and the mobile panel style their links differently. */
  datatype Layout = Desktop | Mobile

  function ActiveClass(l: Layout): string {
    match l
    case Desktop => "text-indigo-600 border-b-2 border-indigo-600 dark:text-white dark:border-white"
    case Mobile => "text-indigo-600 bg-gray-100 dark:bg-gray-700 dark:text-white"
  }

  function InactiveClass(l: Layout): string {
    match l
    case Desktop => "text-gray-500 hover:text-indigo-600 hover:border-b-2 hover:border-indigo-600 dark:text-gray-300 dark:hover:text-white dark:hover:border-white"
    case Mobile => "text-gray-500 hover:bg-gray-100 hover:text-indigo-600 dark:text-gray-300 dark:hover:bg-gray-700 dark:hover:text-white"
  }

  function BaseClass(l: Layout): string {
    match l
    case Desktop => "px-3 py-2 text-sm font-medium"
    case Mobile => "block px-3 py-2 rounded-md text-base font-medium"
  }

  /** The classes for the link's active state. */
  function StateClass(l: Layout, isActive: bool): string {
    if isActive then ActiveClass(l) else InactiveClass(l)
  }

  /** `classNames(state, base)` for any two class strings. */
  function PairClass(state: string, base: string): (c: string)
    ensures c == Beside(state, base)
  {
    ClassNamesAppend([state], [base]);
    ClassNamesSingle(state);
    ClassNamesSingle(base);
    assert [state] + [base] == [state, base];
    ClassNames([state, base])
  }

  /** A link's class: the active or inactive classes, then the base classes. */
  function LinkClass(l: Layout, isActive: bool): (c: string)
    ensures isActive ==> c == Beside(ActiveClass(l), BaseClass(l))
    ensures !isActive ==> c == Beside(InactiveClass(l), BaseClass(l))
  {
    PairClass(StateClass(l, isActive), BaseClass(l))
  }
}

=== FILE: pagination.dfy ===
/**
 * The previous / current / next controls that BookList and CategoryList draw
 * under every list, empty or not. There is no upper bound: the server never
 * reports a page count, so "next" is always enabled.
 */
module Pagination {

  datatype Controls = Controls(prevDisabled: bool, shownPage: int, prevTarget: int, nextTarget: int)

  /** The controls drawn for `currentPage`; the targets are what each button hands to `onPageChange`. */
  function ControlsFor(currentPage: int): (c: Controls)
    ensures c.prevDisabled <==> currentPage <= 1
    ensures c.shownPage == currentPage
    ensures c.prevTarget == currentPage - 1 && c.nextTarget == currentPage + 1
    ensures !c.prevDisabled ==> c.prevTarget >= 1
  {
    Controls(currentPage <= 1, currentPage, currentPage - 1, currentPage + 1)
  }

  /** Whether some enabled button of `c` requests `page`. */
  predicate Requests(c: Controls, page: int) {
    (!c.prevDisabled && page == c.prevTarget) || page == c.nextTarget
  }
}

=== FILE: resource_lists.dfy ===
/**
 * BookList and CategoryList: a card or row per item whose buttons report
 * that item to the screen, an empty-state message, and the pagination
 * controls, which are drawn in both cases.
 */
module ResourceLists {
  import opened Wrappers
  import opened Entities
  import opened BookDisplay
  import opened Pagination
  import opened ResourceScreen

  datatype BookCard = BookCard(book: Book, categoryLabel: string, cover: Cover,
                               onView: Event<Book>, onEdit: Event<Book>)

  datatype BookListView = BookListView(cards: seq<BookCard>, emptyMessage: Option<string>, pagination: Controls)

  const NoBooksMessage: string := "No books found. Add a new book to your collection!"

  function CardOf(b: Book): (c: BookCard)
    ensures c.book == b && c.onView == ViewPressed(b) && c.onEdit == EditPressed(b)
    ensures b.category.Some? && b.category.value.name != "" ==> c.categoryLabel == b.category.value.name
    ensures b.category.None? || b.category.value.name == "" ==> c.categoryLabel == "Uncategorized"
    ensures c.cover.Image? <==> b.imageUrl != ""
  {
    BookCard(b, CategoryLabel(b), CoverOf(b), ViewPressed(b), EditPressed(b))
  }

  function BookList(books: seq<Book>, currentPage: int): (v: BookListView)
    ensures v.emptyMessage.Some? <==> |books| == 0
    ensures v.emptyMessage.Some? ==> v.emptyMessage.value == NoBooksMessage
    ensures |v.cards| == |books|
    ensures forall i | 0 <= i < |books| ::
              v.cards[i].book == books[i] && v.cards[i].onView == ViewPressed(books[i])
              && v.cards[i].onEdit == EditPressed(books[i])
              && v.cards[i].categoryLabel == CategoryLabel(books[i]) && v.cards[i].cover == CoverOf(books[i])
    ensures v.pagination == ControlsFor(currentPage)
  {
    BookListView(seq(|books|, i requires 0 <= i < |books| => CardOf(books[i])),
                 if |books| == 0 then Some(NoBooksMessage) else None,
                 ControlsFor(currentPage))
  }

  datatype CategoryRow = CategoryRow(category: Category, onView: Event<Category>, onEdit: Event<Category>)

  datatype CategoryListView = CategoryListView(rows: seq<CategoryRow>, emptyMessage: Option<string>, pagination: Controls)

  const NoCategoriesMessage: string := "No categories found. Add a new category to get started!"

  function CategoryList(categories: seq<Category>, currentPage: int): (v: CategoryListView)
    ensures v.emptyMessage.Some? <==> |categories| == 0
    ensures v.emptyMessage.Some? ==> v.emptyMessage.value == NoCategoriesMessage
    ensures |v.rows| == |categories|
    ensures forall i | 0 <= i < |categories| ::
              v.rows[i].category == categories[i] && v.rows[i].onView == ViewPressed(categories[i])
              && v.rows[i].onEdit == EditPressed(categories[i])
    ensures v.pagination == ControlsFor(currentPage)
  {
    CategoryListView(
      seq(|categories|, i requires 0 <= i < |categories| =>
        CategoryRow(categories[i], ViewPressed(categories[i]), EditPressed(categories[i]))),
      if |categories| == 0 then Some(NoCategoriesMessage) else None,
      ControlsFor(currentPage))
  }

  /**
   * While no modal covers it, every event the book list can emit, drawn for
   * the screen's own page, is one the screen accepts; so list-driven runs
   * keep the screen well formed.
   */
  lemma BookListEventsEnabled(s: Screen<Book>, books: seq<Book>, i: int, page: int)
    requires 0 <= i < |books|
    requires ListUncovered(s)
    requires Requests(BookList(books, s.page).pagination, page)
    ensures var v := BookList(books, s.page);
      Enabled(s, v.cards[i].onView) && Enabled(s, v.cards[i].onEdit) && Enabled(s, PageRequested(page))
  {
  }

  /** Choosing "View" on a card shows that card's book and nothing else. */
  lemma ViewCardShowsItsBook(s: Screen<Book>, books: seq<Book>, i: int)
    requires 0 <= i < |books|
    ensures var v := BookList(books, s.page);
      DetailView(Step(s, v.cards[i].onView).next) == Some(books[i])
      && FormView(Step(s, v.cards[i].onView).next) == None
  {
  }

  /** Choosing "Edit" on a row opens the form on that row's category in edit mode. */
  lemma EditRowOpensItsCategory(s: Screen<Category>, categories: seq<Category>, i: int)
    requires 0 <= i < |categories|
    ensures var v := CategoryList(categories, s.page);
      FormView(Step(s, v.rows[i].onEdit).next) == Some(FormProps(Some(categories[i]), true))
  {
  }
}

=== FILE: resource_screen.dfy ===
/**
 * The list screen shared by Books and both revisions of Category: the
 * current page, the selected row, and whether the form modal is open and in
 * edit mode. Which modal is drawn is derived from that state. Handlers are
 * pure transitions that also report how many list refetches they issue.
 */
module ResourceScreen {
  import opened Wrappers
  import opened Js
  import opened Http
  import Pagination

  /** Which list endpoint the screen reads. */
  datatype Resource = Books | Categories

  /** The `limit` every list fetch sends. */
  const PageLimit: int := 10

  function BasePath(res: Resource): string {
    match res
    case Books => "/api/books"
    case Categories => "/api/category"
  }

  /** The URL of `fetchBookList` / `fetchCategoryList` for a page. */
  function ListUrl(res: Resource, page: int): string {
    BasePath(res) + "?page=" + IntToDecimal(page) + "&limit=" + IntToDecimal(PageLimit)
  }

  datatype Screen<E> = Screen(page: int, selected: Option<E>, formOpen: bool, editMode: bool)

  /** The state after a handler, and the number of `refetch()` calls it made. */
  datatype Transition<E> = Transition(next: Screen<E>, refetches: nat)

  /** The props handed to the form modal: the entity (null in create mode) and the mode. */
  datatype FormProps<E> = FormProps(entity: Option<E>, editMode: bool)

  function Initial<E>(): (s: Screen<E>)
    ensures s.page == 1
    ensures FormView(s) == None && DetailView(s) == None
  {
    Screen(1, None, false, false)
  }

  /** The form modal, if drawn: it receives the selection only in edit mode. */
  function FormView<E>(s: Screen<E>): (r: Option<FormProps<E>>)
    ensures r.Some? <==> s.formOpen
    ensures r.Some? ==> r.value.editMode == s.editMode
    ensures r.Some? && r.value.entity.Some? ==> r.value.editMode && r.value.entity == s.selected
    ensures r.Some? && s.editMode ==> r.value.entity == s.selected
  {
    if s.formOpen then Some(FormProps(if s.editMode then s.selected else None, s.editMode)) else None
  }

  /** The detail modal, if drawn: only with a selection and with the form closed. */
  function DetailView<E>(s: Screen<E>): (r: Option<E>)
    ensures r.Some? ==> FormView(s) == None && r == s.selected
    ensures s.selected.Some? && !s.formOpen ==> r.Some?
  {
    if s.selected.Some? && !s.formOpen then s.selected else None
  }

  /** The list query: its cache key and the request its fetcher sends. */
  function ListQueryKey<E>(res: Resource, s: Screen<E>): QueryKey {
    match res
    case Books => BookListKey(s.page)
    case Categories => CategoryListKey(s.page)
  }

  function ListRequest<E>(res: Resource, s: Screen<E>): (r: Request)
    ensures r.verb == GET && r.body == NoBody
    ensures r.url == BasePath(res) + "?page=" + IntToDecimal(s.page) + "&limit=10"
  {
    Request(GET, ListUrl(res, s.page), NoBody)
  }

  /** "Add New": the form opens in create mode, with no entity; the page stays. */
  function AddNewClick<E>(s: Screen<E>): (t: Transition<E>)
    ensures t.next.selected == None && t.next.formOpen && !t.next.editMode
    ensures FormView(t.next) == Some(FormProps(None, false))
    ensures DetailView(t.next) == None
    ensures t.next.page == s.page && t.refetches == 0
  {
    Transition(s.(selected := None, editMode := false, formOpen := true), 0)
  }

  /** "Edit" on a row or in the detail: the form opens in edit mode on `e`. */
  function EditClick<E>(s: Screen<E>, e: E): (t: Transition<E>)
    ensures FormView(t.next) == Some(FormProps(Some(e), true))
    ensures DetailView(t.next) == None
    ensures t.next.page == s.page && t.refetches == 0
  {
    Transition(s.(selected := Some(e), editMode := true, formOpen := true), 0)
  }

  /** "View" on a row: the detail of `e` is drawn; the edit-mode flag is left as it was. */
  function ViewClick<E>(s: Screen<E>, e: E): (t: Transition<E>)
    ensures DetailView(t.next) == Some(e)
    ensures FormView(t.next) == None
    ensures t.next.editMode == s.editMode
    ensures t.next.page == s.page && t.refetches == 0
  {
    Transition(s.(selected := Some(e), formOpen := false), 0)
  }

  /** Closing the form hides it only: a still-selected entity's detail comes back. */
  function CloseForm<E>(s: Screen<E>): (t: Transition<E>)
    ensures FormView(t.next) == None
    ensures DetailView(t.next) == s.selected
    ensures t.next.selected == s.selected && t.next.editMode == s.editMode
    ensures t.next.page == s.page && t.refetches == 0
  {
    Transition(s.(formOpen := false), 0)
  }

  /** Closing the detail drops the selection and touches nothing else. */
  function CloseDetail<E>(s: Screen<E>): (t: Transition<E>)
    ensures DetailView(t.next) == None
    ensures t.next.selected == None
    ensures t.next.formOpen == s.formOpen && t.next.editMode == s.editMode
    ensures t.next.page == s.page && t.refetches == 0
  {
    Transition(s.(selected := None), 0)
  }

  /** The form saved: one refetch, and the form closes without clearing the selection. */
  function FormSubmit<E>(s: Screen<E>): (t: Transition<E>)
    ensures t.refetches == 1
    ensures FormView(t.next) == None
    ensures DetailView(t.next) == s.selected
    ensures t.next.selected == s.selected && t.next.editMode == s.editMode
    ensures t.next.page == s.page
  {
    Transition(s.(formOpen := false), 1)
  }

  /** The detail deleted its entity: one refetch, and the selection is cleared. */
  function DeleteSuccess<E>(s: Screen<E>): (t: Transition<E>)
    ensures t.refetches == 1
    ensures DetailView(t.next) == None && t.next.selected == None
    ensures t.next.formOpen == s.formOpen && t.next.editMode == s.editMode
    ensures t.next.page == s.page
  {
    Transition(s.(selected := None), 1)
  }

  /**
   * The page is assigned as requested, without clamping; the list query
   * follows it, under a new cache key exactly when the page differs, which is
   * what makes react-query fetch without a `refetch()` call.
   */
  function PageChange<E>(s: Screen<E>, page: int): (t: Transition<E>)
    ensures t.next.page == page
    ensures forall res: Resource :: ListRequest(res, t.next).url == ListUrl(res, page)
    ensures forall res: Resource :: ListQueryKey(res, t.next) != ListQueryKey(res, s) <==> page != s.page
    ensures t.next.selected == s.selected && t.next.formOpen == s.formOpen
    ensures t.next.editMode == s.editMode && t.refetches == 0
  {
    Transition(s.(page := page), 0)
  }

  /** A user action or callback that reaches the screen. */
  datatype Event<E> =
    | AddNewPressed
    | EditPressed(entity: E)
    | ViewPressed(entity: E)
    | FormClosed
    | FormSubmitted
    | DetailClosed
    | DeleteSucceeded
    | PageRequested(page: int)

  function Step<E>(s: Screen<E>, ev: Event<E>): Transition<E> {
    match ev
    case AddNewPressed => AddNewClick(s)
    case EditPressed(e) => EditClick(s, e)
    case ViewPressed(e) => ViewClick(s, e)
    case FormClosed => CloseForm(s)
    case FormSubmitted => FormSubmit(s)
    case DetailClosed => CloseDetail(s)
    case DeleteSucceeded => DeleteSuccess(s)
    case PageRequested(p) => PageChange(s, p)
  }

  /**
   * Whether nothing covers the header and the list: both modals are
   * full-screen overlays, so while either is drawn only its own controls
   * can be clicked.
   */
  predicate ListUncovered<E>(s: Screen<E>) {
    FormView(s).None? && DetailView(s).None?
  }

  /**
   * Whether the control firing `ev` can be clicked: the form's callbacks need
   * the form, the detail's need the detail, Add New, a row's View and Edit
   * and the pagination buttons need the list uncovered, and the detail's own
   * Edit is the one way to edit while the detail is drawn.
   */
  predicate Enabled<E(==)>(s: Screen<E>, ev: Event<E>)
    ensures (ev.AddNewPressed? || ev.ViewPressed?) ==> (Enabled(s, ev) <==> !s.formOpen && s.selected.None?)
    ensures ev.EditPressed? ==> (Enabled(s, ev) <==> !s.formOpen && (s.selected.None? || s.selected == Some(ev.entity)))
    ensures (ev.FormClosed? || ev.FormSubmitted?) ==> (Enabled(s, ev) <==> s.formOpen)
    ensures (ev.DetailClosed? || ev.DeleteSucceeded?) ==> (Enabled(s, ev) <==> !s.formOpen && s.selected.Some?)
    ensures ev.PageRequested? && Enabled(s, ev) ==>
              !s.formOpen && s.selected.None? && (ev.page == s.page + 1 || (s.page > 1 && ev.page == s.page - 1))
  {
    match ev
    case AddNewPressed => ListUncovered(s)
    case ViewPressed(_) => ListUncovered(s)
    case EditPressed(e) => FormView(s).None? && (DetailView(s).None? || DetailView(s) == Some(e))
    case FormClosed => FormView(s).Some?
    case FormSubmitted => FormView(s).Some?
    case DetailClosed => DetailView(s).Some?
    case DeleteSucceeded => DetailView(s).Some?
    case PageRequested(p) => ListUncovered(s) && Pagination.Requests(Pagination.ControlsFor(s.page), p)
  }

  /**
   * What the screen keeps true under enabled events: the page is at least 1,
   * and an open edit-mode form always has an entity to edit.
   */
  ghost predicate Wf<E>(s: Screen<E>) {
    s.page >= 1 && (s.formOpen && s.editMode ==> s.selected.Some?)
  }

  lemma InitialWf<E>()
    ensures Wf(Initial<E>())
  {
  }

  lemma StepKeepsWf<E>(s: Screen<E>, ev: Event<E>)
    requires Wf(s) && Enabled(s, ev)
    ensures Wf(Step(s, ev).next)
  {
  }

  /**
   * The guard is needed: closing the detail while an edit form is open (which
   * no control allows) would leave an edit-mode form with no entity.
   */
  lemma CloseDetailNeedsGuard<E>(s: Screen<E>, e: E)
    ensures var u := EditClick(s, e).next;
      !Enabled(u, DetailClosed) && !Wf(CloseDetail(u).next)
  {
  }

  /**
   * A delete response that arrives after the detail has closed breaks the
   * invariant: confirm a delete in the detail of `e`, press the detail's Edit
   * while the request is in flight, and the late success clears the
   * selection under an edit-mode form. `Enabled` does not admit this run,
   * which is why the invariant is stated for enabled runs only.
   */
  lemma LateDeleteBreaksWf<E>(s: Screen<E>, e: E)
    requires Wf(s) && DetailView(s) == Some(e)
    ensures Enabled(s, EditPressed(e))
    ensures var editing := EditClick(s, e).next;
      Wf(editing) && !Enabled(editing, DeleteSucceeded)
      && FormView(DeleteSuccess(editing).next) == Some(FormProps(None, true))
      && !Wf(DeleteSuccess(editing).next)
  {
  }

  /** On the first page the only page request a button can make is for page 2. */
  lemma FirstPageOnlyForward<E>(s: Screen<E>, p: int)
    requires s.page == 1 && Enabled(s, PageRequested(p))
    ensures Step(s, PageRequested(p)).next.page == 2
  {
  }

  /** Running a sequence of events from `s`; refetch counts add up. */
  function Run<E>(s: Screen<E>, evs: seq<Event<E>>): Transition<E>
    decreases |evs|
  {
    if evs == [] then
      Transition(s, 0)
    else
      var t := Step(s, evs[0]);
      var u := Run(t.next, evs[1..]);
      Transition(u.next, t.refetches + u.refetches)
  }

  /** Every event of the run is enabled in the state it reaches. */
  predicate EnabledRun<E(==)>(s: Screen<E>, evs: seq<Event<E>>)
    decreases |evs|
  {
    evs == [] || (Enabled(s, evs[0]) && EnabledRun(Step(s, evs[0]).next, evs[1..]))
  }

  /** How many events of the run report a finished mutation. */
  function Mutations<E>(evs: seq<Event<E>>): nat
    decreases |evs|
  {
    if evs == [] then 0
    else (if evs[0].FormSubmitted? || evs[0].DeleteSucceeded? then 1 else 0) + Mutations(evs[1..])
  }

  /** Any run of enabled events from a well-formed state stays well-formed. */
  lemma {:induction false} EnabledRunKeepsWf<E>(s: Screen<E>, evs: seq<Event<E>>)
    requires Wf(s) && EnabledRun(s, evs)
    ensures Wf(Run(s, evs).next)
    decreases |evs|
  {
    if evs != [] {
      StepKeepsWf(s, evs[0]);
      EnabledRunKeepsWf(Step(s, evs[0]).next, evs[1..]);
    }
  }

  /** `refetch()` is called exactly once per finished save or delete, and never otherwise. */
  lemma {:induction false} RefetchesCountMutations<E>(s: Screen<E>, evs: seq<Event<E>>)
    ensures Run(s, evs).refetches == Mutations(evs)
    decreases |evs|
  {
    if evs != [] {
      RefetchesCountMutations(Step(s, evs[0]).next, evs[1..]);
    }
  }

  /** Every screen reached through the controls has a page of at least 1 and never shows both modals. */
  lemma ReachableScreens<E>(evs: seq<Event<E>>)
    requires EnabledRun(Initial<E>(), evs)
    ensures var s := Run(Initial<E>(), evs).next;
      s.page >= 1 && !(FormView(s).Some? && DetailView(s).Some?)
      && (FormView(s).Some? && FormView(s).value.editMode ==> FormView(s).value.entity.Some?)
  {
    InitialWf<E>();
    EnabledRunKeepsWf(Initial<E>(), evs);
  }
}

=== FILE: review_screen.dfy ===
/**
 * The review screen (the routed revision and the page revision carry the
 * same logic): an optional book filter picks which of two list queries runs;
 * add / edit / cancel drive an inline form; create, update and delete are
 * mutations whose success invalidates cache keys.
 */
module ReviewScreen {
  import opened Wrappers
  import opened Js
  import opened Entities
  import opened Http

  /** `selectedBookId`, `showForm` and `editingReview`. */
  datatype State = State(filter: Option<JsNumber>, showForm: bool, editing: Option<Review>)

  const Initial: State := State(None, false, None)

  /** The screen opens on all reviews, with the list (not the form) showing. */
  lemma InitialScreen()
    ensures !Filtered(Initial) && EnabledQueries(Initial) == {ReviewsListKey}
    ensures AddButtonShown(Initial) && !ClearShown(Initial) && Initial.editing == None
  {
  }

  /** Whether the filter is truthy: `null`, `0` and NaN all mean "all reviews". */
  predicate Filtered(s: State) {
    s.filter.Some? && NumTruthy(s.filter.value)
  }

  /** The keys of the list queries that are enabled: exactly one of the two. */
  function EnabledQueries(s: State): (keys: set<QueryKey>)
    ensures |keys| == 1
    ensures ReviewsListKey in keys <==> !Filtered(s)
    ensures Filtered(s) <==> BookReviewsKey(s.filter.GetOr(NaN)) in keys
  {
    if Filtered(s) then {BookReviewsKey(s.filter.value)} else {ReviewsListKey}
  }

  /** The GET the enabled query sends. */
  function ListRequest(s: State): (r: Request)
    ensures r.verb == GET && r.body == NoBody
    ensures Filtered(s) ==> r.url == "/api/review/book/" + IntToDecimal(s.filter.value.n)
    ensures !Filtered(s) ==> r.url == "/api/review"
  {
    if Filtered(s) then Request(GET, "/api/review/book/" + NumberToString(s.filter.value), NoBody)
    else Request(GET, "/api/review", NoBody)
  }

  /** What the screen body shows below its header. */
  datatype Panel = FormPanel(review: Option<Review>) | LoadingPanel | CardsPanel(reviews: seq<Review>) | EmptyPanel

  /**
   * The form while it is shown; otherwise the list of the query the filter
   * selects: loading, its cards, or the empty state.
   */
  function Displayed(s: State, all: QueryState<seq<Review>>, byBook: QueryState<seq<Review>>): (p: Panel)
    ensures s.showForm <==> p.FormPanel?
    ensures p.FormPanel? ==> p.review == s.editing
    ensures p.CardsPanel? ==>
              |p.reviews| > 0 && Some(p.reviews) == (if Filtered(s) then byBook.data else all.data)
    ensures !s.showForm ==> (p.LoadingPanel? <==> (if Filtered(s) then byBook.isLoading else all.isLoading))
    ensures var q := if Filtered(s) then byBook else all;
      !s.showForm && !q.isLoading ==> (p.CardsPanel? <==> q.data.Some? && |q.data.value| > 0)
  {
    if s.showForm then
      FormPanel(s.editing)
    else
      var q := if Filtered(s) then byBook else all;
      if q.isLoading then LoadingPanel
      else if q.data.Some? && |q.data.value| > 0 then CardsPanel(q.data.value)
      else EmptyPanel
  }

  /** The query the filter does not select never affects the screen. */
  lemma DisplayFollowsFilter(s: State, a: QueryState<seq<Review>>, a': QueryState<seq<Review>>,
                             b: QueryState<seq<Review>>, b': QueryState<seq<Review>>)
    ensures Filtered(s) ==> Displayed(s, a, b) == Displayed(s, a', b)
    ensures !Filtered(s) ==> Displayed(s, a, b) == Displayed(s, a, b')
  {
  }

  /** The header's "Add Review" button is drawn only while the form is hidden. */
  predicate AddButtonShown(s: State)
    ensures forall all, byBook :: AddButtonShown(s) <==> !Displayed(s, all, byBook).FormPanel?
  {
    !s.showForm
  }

  /**
   * The filter panel's "Clear" button: the panel is drawn only in place of
   * the form, and inside it the button only while a filter is in force.
   */
  predicate ClearShown(s: State)
    ensures ClearShown(s) <==> !s.showForm && ReviewsListKey !in EnabledQueries(s)
    ensures forall all, byBook :: ClearShown(s) ==> !Displayed(s, all, byBook).FormPanel?
  {
    !s.showForm && Filtered(s)
  }

  /** `handleAddClick`: an empty form. */
  function AddClick(s: State): (r: State)
    ensures Displayed(r, QueryState(false, None), QueryState(false, None)) == FormPanel(None)
    ensures r.filter == s.filter
  {
    s.(editing := None, showForm := true)
  }

  /** `handleEditClick`: the form on `review`. */
  function EditClick(s: State, review: Review): (r: State)
    ensures Displayed(r, QueryState(false, None), QueryState(false, None)) == FormPanel(Some(review))
    ensures r.filter == s.filter
  {
    s.(editing := Some(review), showForm := true)
  }

  /** `handleFormCancel`: hide the form and forget the review being edited. */
  function CancelForm(s: State): (r: State)
    ensures !r.showForm && r.editing == None && r.filter == s.filter
    ensures AddButtonShown(r)
  {
    s.(showForm := false, editing := None)
  }

  /** The three review mutations. */
  datatype Mutation = CreateReview(data: ReviewDraft) | UpdateReview(id: int, data: ReviewDraft) | DeleteReview(id: int)

  function MutationRequest(m: Mutation): (r: Request)
    ensures m.CreateReview? ==> r == Request(POST, "/api/review", ReviewBody(m.data))
    ensures m.UpdateReview? ==> r == Request(PUT, "/api/review/" + IntToDecimal(m.id), ReviewBody(m.data))
    ensures m.DeleteReview? ==> r == Request(DELETE, "/api/review/" + IntToDecimal(m.id), NoBody)
  {
    match m
    case CreateReview(d) => Request(POST, "/api/review", ReviewBody(d))
    case UpdateReview(id, d) => Request(PUT, "/api/review/" + IntToDecimal(id), ReviewBody(d))
    case DeleteReview(id) => Request(DELETE, "/api/review/" + IntToDecimal(id), NoBody)
  }

  /** `handleDeleteClick`: the delete runs only when the confirmation returns true. */
  function DeleteClick(id: int, confirmed: bool): (m: Option<Mutation>)
    ensures m.Some? <==> confirmed
    ensures m.Some? ==> m.value == DeleteReview(id)
  {
    if confirmed then Some(DeleteReview(id)) else None
  }

  /** `handleFormSubmit`: update the review being edited, or create a new one. */
  function FormSubmit(s: State, data: ReviewDraft): (m: Mutation)
    ensures m.UpdateReview? <==> s.editing.Some?
    ensures m.UpdateReview? ==> m.id == s.editing.value.id
    ensures !m.DeleteReview? && m.data == data
  {
    if s.editing.Some? then UpdateReview(s.editing.value.id, data) else CreateReview(data)
  }

  /** The keys every successful mutation invalidates. */
  function Invalidated(s: State): (keys: seq<QueryKey>)
    ensures |keys| > 0 && keys[0] == ReviewsListKey
    ensures |keys| == if Filtered(s) then 2 else 1
    ensures Filtered(s) ==> keys[1] == BookReviewsKey(s.filter.value)
  {
    [ReviewsListKey] + if Filtered(s) then [BookReviewsKey(s.filter.value)] else []
  }

  /** The state after a mutation settles and the keys invalidated. */
  datatype Settled = Settled(next: State, invalidated: seq<QueryKey>)

  /** `onSuccess` of each mutation; a failed mutation has no handler and changes nothing. */
  function Settle(s: State, m: Mutation, outcome: Outcome): (r: Settled)
    ensures outcome.Failure? ==> r == Settled(s, [])
    ensures outcome.Success? ==> r.invalidated == Invalidated(s)
    ensures r.next.filter == s.filter
    ensures outcome.Success? && m.CreateReview? ==> !r.next.showForm && r.next.editing == s.editing
    ensures outcome.Success? && m.UpdateReview? ==> !r.next.showForm && r.next.editing == None
    ensures m.DeleteReview? ==> r.next == s
  {
    match outcome
    case Failure(_) => Settled(s, [])
    case Success =>
      match m
      case CreateReview(_) => Settled(s.(showForm := false), Invalidated(s))
      case UpdateReview(_, _) => Settled(s.(showForm := false, editing := None), Invalidated(s))
      case DeleteReview(_) => Settled(s, Invalidated(s))
  }

  /** The filter select: the empty option means no filter, any other value is parsed. */
  function SelectFilter(s: State, value: string): (r: State)
    ensures value == "" ==> r.filter == None && !Filtered(r)
    ensures value != "" ==> r.filter == Some(ParseInt(value))
    ensures r.showForm == s.showForm && r.editing == s.editing
  {
    s.(filter := if value != "" then Some(ParseInt(value)) else None)
  }

  /** The "Clear" button. */
  function ClearFilter(s: State): (r: State)
    ensures !Filtered(r) && EnabledQueries(r) == {ReviewsListKey}
    ensures r.showForm == s.showForm && r.editing == s.editing
  {
    s.(filter := None)
  }

  /** Picking the option of book `id` (a truthy id) switches to that book's reviews. */
  lemma SelectBookFilters(s: State, id: int)
    requires id != 0
    ensures var r := SelectFilter(s, IntToDecimal(id));
      Filtered(r) && EnabledQueries(r) == {BookReviewsKey(Num(id))}
      && ListRequest(r).url == "/api/review/book/" + IntToDecimal(id)
  {
    ParseIntOfDecimal(id);
  }

  /** Filtering and then clearing returns exactly to the unfiltered query. */
  lemma ClearRestoresUnfiltered(s: State, value: string)
    ensures var r := ClearFilter(SelectFilter(s, value));
      EnabledQueries(r) == EnabledQueries(Initial) && ListRequest(r) == ListRequest(Initial)
  {
  }

  /** The form's starting draft: `review?.book_id || 0` and `review?.ulasan || ""`. */
  function FormInitialDraft(review: Option<Review>): (d: ReviewDraft)
    ensures review.Some? ==> d == ReviewDraft(Num(review.value.bookId), review.value.ulasan)
    ensures review.None? ==> d == ReviewDraft(Num(0), "")
  {
    match review
    case Some(r) => ReviewDraft(NumOr(Num(r.bookId), Num(0)), StrOr(r.ulasan, ""))
    case None => ReviewDraft(Num(0), "")
  }

  datatype Field = BookId | Ulasan

  /** The form's `handleChange`: the book id is parsed, the text is stored verbatim. */
  function FormChange(d: ReviewDraft, name: Field, value: string): (r: ReviewDraft)
    ensures name == BookId ==> r.bookId == ParseInt(value) && r.ulasan == d.ulasan
    ensures name == Ulasan ==> r.ulasan == value && r.bookId == d.bookId
  {
    match name
    case BookId => d.(bookId := ParseInt(value))
    case Ulasan => d.(ulasan := value)
  }

  /** Choosing the book option whose value renders `id` stores exactly that id. */
  lemma ChooseBookStoresId(d: ReviewDraft, id: int)
    ensures FormChange(d, BookId, IntToDecimal(id)).bookId == Num(id)
  {
    ParseIntOfDecimal(id);
  }

  /**
   * Editing a review and saving it with new text sends PUT
   * `/api/review/{id}` with the review's own book id; success closes the
   * form and invalidates the list keys.
   */
  lemma EditThenSave(s: State, review: Review, text: string)
    ensures var open := EditClick(s, review);
      var draft := FormChange(FormInitialDraft(open.editing), Ulasan, text);
      var m := FormSubmit(open, draft);
      var done := Settle(open, m, Success);
      MutationRequest(m) == Request(PUT, "/api/review/" + IntToDecimal(review.id), ReviewBody(ReviewDraft(Num(review.bookId), text)))
      && !done.next.showForm && done.next.editing == None
      && done.invalidated == Invalidated(s)
  {
  }
}

=== FILE: wiring.dfy ===
/**
 * How the screens hand their state to the form and detail modals, and the
 * end-to-end behaviour that results: save and delete cycles across the
 * screen, the form and the delete flow.
 */
module Wiring {
  import opened Wrappers
  import opened Js
  import opened Entities
  import opened Http
  import opened FormController
  import RS = ResourceScreen
  import BF = BookForm
  import CF = CategoryForm
  import DF = DeleteFlow

  /** The BookForm props Books passes while the form is drawn (`categoryData?.data || []`). */
  function BookFormProps(s: RS.Screen<Book>, categoryData: Option<seq<CategoryRef>>): (p: Option<BF.Props>)
    ensures p.Some? <==> s.formOpen
    ensures p.Some? ==> p.value.isOpen && p.value.isEditMode == s.editMode && p.value.categories == categoryData.GetOr([])
    ensures p.Some? && p.value.book.Some? ==> s.editMode && p.value.book == s.selected
    ensures p.Some? && s.editMode ==> p.value.book == s.selected
  {
    match RS.FormView(s)
    case None => None
    case Some(fp) => Some(BF.Props(true, fp.entity, fp.editMode, categoryData.GetOr([])))
  }

  /** The CategoryForm props either Category revision passes while the form is drawn. */
  function CategoryFormProps(s: RS.Screen<Category>): (p: Option<CF.Props>)
    ensures p.Some? <==> s.formOpen
    ensures p.Some? ==> p.value.isOpen && p.value.isEditMode == s.editMode
    ensures p.Some? && p.value.category.Some? ==> s.editMode && p.value.category == s.selected
    ensures p.Some? && s.editMode ==> p.value.category == s.selected
  {
    match RS.FormView(s)
    case None => None
    case Some(fp) => Some(CF.Props(true, fp.entity, fp.editMode))
  }

  /**
   * "Add New Book" then save: the draft starts from the first category and
   * is POSTed to `/books`; on success the screen refetches once and shows
   * neither modal; on failure the form stays open with an error.
   */
  lemma AddBookThenSave(s: RS.Screen<Book>, categoryData: Option<seq<CategoryRef>>, outcome: Outcome)
    ensures var open := RS.AddNewClick(s).next;
      var props := BookFormProps(open, categoryData).value;
      var step := BF.HandleSubmit(BF.Mount(props), props, outcome);
      step.request == Request(POST, "/books", BookBody(BF.InitialDraft(categoryData.GetOr([]))))
      && (outcome.Success? ==>
            step.onSubmitCalled && RS.FormSubmit(open).refetches == 1
            && RS.FormView(RS.FormSubmit(open).next) == None && RS.DetailView(RS.FormSubmit(open).next) == None
            && RS.FormSubmit(open).next.page == s.page)
      && (outcome.Failure? ==> !step.onSubmitCalled && ErrorShown(step.settled) && RS.FormView(open).Some?)
  {
  }

  /**
   * "Edit" on book `b` then save: the draft is exactly `b`'s fields and is
   * PUT to `/books/{id}`; after success the form closes and, the selection
   * surviving, the detail of `b` is drawn again.
   */
  lemma EditBookThenSave(s: RS.Screen<Book>, b: Book, categoryData: Option<seq<CategoryRef>>)
    ensures var open := RS.EditClick(s, b).next;
      var props := BookFormProps(open, categoryData).value;
      var step := BF.HandleSubmit(BF.Mount(props), props, Success);
      step.request == Request(PUT, "/books/" + IntToDecimal(b.id),
                              BookBody(BookDraft(b.title, b.author, Num(b.categoryId), b.imageUrl)))
      && step.onSubmitCalled
      && RS.DetailView(RS.FormSubmit(open).next) == Some(b) && RS.FormSubmit(open).refetches == 1
  {
  }

  /** "Edit" on a category then save: PUT to `/api/category/{id}` with its name and description. */
  lemma EditCategoryThenSave(s: RS.Screen<Category>, c: Category, outcome: Outcome)
    ensures var open := RS.EditClick(s, c).next;
      var props := CategoryFormProps(open).value;
      var step := CF.HandleSubmit(CF.Mount(props), props, outcome);
      step.request == Request(PUT, "/api/category/" + IntToDecimal(c.id), CategoryBody(CategoryDraft(c.name, c.description)))
      && (step.onSubmitCalled <==> outcome.Success?)
  {
  }

  /** The screen events a detail's `onDelete` calls fire: one `DeleteSucceeded` per call. */
  function OnDeleteEvents<E>(calls: nat): (evs: seq<RS.Event<E>>)
    ensures |evs| == calls
    ensures forall i | 0 <= i < |evs| :: evs[i] == RS.DeleteSucceeded
  {
    seq(calls, _ => RS.DeleteSucceeded)
  }

  /**
   * Confirming a delete in the detail of book `b`: the request is a DELETE of
   * that book's URL. On success `onDelete` fires once, which refetches the
   * list and closes the detail; on failure no screen event fires, so the
   * screen is exactly as it was and the detail of `b` stays open.
   */
  lemma DeleteBookFromDetail(s: RS.Screen<Book>, b: Book, ds: DF.DeleteState, outcome: Outcome)
    requires RS.DetailView(s) == Some(b)
    requires DF.Enabled(ds, DF.ConfirmPressed(outcome))
    ensures var step := DF.ConfirmDelete(ds, DF.BookTarget(b.id), outcome);
      var after := RS.Run(s, OnDeleteEvents(step.onDeleteCalls));
      step.request == Request(DELETE, "/api/books/" + IntToDecimal(b.id), NoBody)
      && (outcome.Success? ==> after.refetches == 1 && RS.DetailView(after.next) == None)
      && (outcome.Failure? ==>
            after.next == s && after.refetches == 0 && RS.DetailView(after.next) == Some(b)
            && step.settled.error != "" && !step.settled.showConfirm && !step.settled.isDeleting)
  {
    var step := DF.ConfirmDelete(ds, DF.BookTarget(b.id), outcome);
    var evs: seq<RS.Event<Book>> := OnDeleteEvents(step.onDeleteCalls);
    if outcome.Success? {
      assert evs == [RS.DeleteSucceeded];
      assert evs[1..] == [];
    } else {
      assert evs == [];
    }
  }

  /**
   * Creating "Dune" by Herbert in category 2 with no image: one POST to
   * `/books` with exactly that body, then one refetch and a closed form.
   */
  lemma CreateDune(s: RS.Screen<Book>)
    ensures var open := RS.AddNewClick(s).next;
      var props := BookFormProps(open, Some([CategoryRef(2, "Science Fiction")])).value;
      var typed := BF.HandleChange(BF.HandleChange(BF.Mount(props).draft, BF.Title, "Dune"), BF.Author, "Herbert");
      var step := BF.HandleSubmit(BF.Mount(props).(draft := typed), props, Success);
      step.request == Request(POST, "/books", BookBody(BookDraft("Dune", "Herbert", Num(2), "")))
      && step.onSubmitCalled
      && RS.FormSubmit(open).refetches == 1 && RS.FormView(RS.FormSubmit(open).next) == None
  {
  }

  /**
   * Deleting category 7 when the server answers "Category in use": the
   * message is shown as sent, the dialog closes, the flag resets, and since
   * `onDelete` is not called the screen is unchanged: no refetch, and the
   * detail of the category stays open.
   */
  lemma CategoryInUse(s: RS.Screen<Category>, c: Category)
    requires c.id == 7 && RS.DetailView(s) == Some(c)
    ensures var ds := DF.RequestDelete(DF.Initial).next;
      var step := DF.ConfirmDelete(ds, DF.CategoryTarget(c.id), Failure(Some("Category in use")));
      step.request == Request(DELETE, "/api/category/7", NoBody)
      && step.settled == DF.DeleteState(false, false, "Category in use")
      && step.onDeleteCalls == 0
      && RS.Run(s, OnDeleteEvents(step.onDeleteCalls)).next == s
      && RS.Run(s, OnDeleteEvents(step.onDeleteCalls)).refetches == 0
      && RS.DetailView(RS.Run(s, OnDeleteEvents(step.onDeleteCalls)).next) == Some(c)
  {
    assert IntToDecimal(7) == "7";
    var evs: seq<RS.Event<Category>> := OnDeleteEvents(0);
    assert evs == [];
  }
}

=== FILE: wrappers.dfy ===
/** The optional value used wherever the components hold `T | null` or `T | undefined`. */
module Wrappers {

  datatype Option<+T> = None | Some(value: T) {

    /** Returns the value in Some, or `default` for None. */
    function GetOr(default: T): T {
      match this
      case Some(v) => v
      case None => default
    }
  }
}
